=== FILE: README.md ===
# LoveLog statistics and achievements, modelled in Dafny

LoveLog is a private journal app. Each record in it is a log entry that carries a timestamp, a
local day key, optional tags, a duration and a note. The log store keeps every entry in memory,
newest first. From that list it derives:

- the unique days;
- the current and the longest streak of consecutive days;
- per-tag counts;
- the years that carry entries;
- a per-month histogram of a year;
- the largest number of entries on one day;
- a set of one-pass counters: weekend, night-owl, early-bird, long and short sessions, and
  month-day pairs.

A fixed table of 21 badges is evaluated against these statistics. Each badge gets a progress
value and is unlocked when the progress reaches its target. Creating an entry optimistically
pushes and re-sorts the list. On success it announces every badge that is unlocked after the
change and was not unlocked before. On failure it removes the new id again. Removing an entry
splices it out, and puts it back at the same index when storage fails. The settings store keeps
a list of custom tags:

- `addTag` ignores empty and already listed tags;
- `removeTag` filters out every copy of a tag.

The project is organised as follows:

- `entries.dfy`: module `Entries`. The entry record, counting by predicate, the id set and the
  newest-first order.
- `histograms.dfy`: module `Histograms`. The "counts per key" records built with
  `counts[k] = (counts[k] || 0) + 1`, as a map with a key order and a total.
- `statistics.dfy`: module `Statistics`. The derived statistics.
- `achievements.dfy`: module `Achievements`. The badge table, progress, evaluation and the
  unlock diff.
- `mutations.dfy`: module `Mutations`. The sort, `addQuickLog`, `removeLog`, `updateEntry` and
  `loadLogs` as list-to-list functions.
- `settings.dfy`: module `Settings`. `addTag` and `removeTag`.

Time is abstract. An `Instant` carries the timestamp and the local calendar fields the store
reads: year, month 0-11, day of month, hour and weekday. It also carries the `YYYY-MM-DD` day key
as an integer day ordinal. Consecutive days therefore differ by one, and the descending string
order of the keys is the descending order of the ordinals. "Today" and the current year are
parameters. The outcome of the storage write in `addQuickLog`, `removeLog` and `updateEntry` is a
boolean parameter. The fetch in `loadLogs` is an `Option<seq<LogEntry>>`. The contents of the
store itself are not modelled.

The badge ids are the constructors of `BadgeId`: `first_step` is `FirstStep`, and so on. The
month-day strings `"M-D"` are pairs `(month0, dayOfMonth)`. The `"YYYY-MM"` month keys are
`MonthKey(year, month0)`.

Three behaviours of the code are easy to get wrong, and the model follows the code in each:

- **Current streak.** The streak starts from yesterday when today has no entry. With entries
  yesterday and the day before but none today and none three days back, the current streak
  is 2.
  `Statistics.StreakCountsFromYesterday` proves this.
- **`updateEntry`.** It replaces an entry in place and does not sort the list again. Only an
  update that keeps the timestamp is shown to keep the newest-first order
  (`Mutations.UpdateKeepsOrder`). The list is changed before the write, and a failed write is
  passed on without rolling the list back.
- **Default tag.** `addQuickLog` always gives the new entry the tag list `["Make Love"]`, so
  every successful add counts that tag once more (`Mutations.AddCountsDefaultTag`).

## Model

| member | source | states |
|---|---|---|
| Statistics.TodayLogs | src/stores/logStore.ts:12-15 | holds an entry exactly when the list holds it with today's day key, and its length is that day's count |
| Statistics.TodayLogsIsFilter | src/stores/logStore.ts:12-15 | the `filter`: each entry of today occurs as often as in the list, no entry of another day occurs, and the list order is kept |
| Statistics.UniqueDates | src/stores/logStore.ts:218-221 | strictly descending, holds every entry's day and no other day, and is empty only for an empty list |
| Statistics.DistinctDescending | src/stores/logStore.ts:219-220 | `Array.from(new Set(keys)).sort((a, b) => b.localeCompare(a))` on day ordinals: strictly descending with the same members; fixed-width `YYYY-MM-DD` keys compare as their ordinals do |
| Statistics.UniqueDatesSet | src/stores/logStore.ts:218-221 | the unique dates are the day set of the entries, with no duplicates |
| Statistics.StreakBack | src/stores/logStore.ts:249-262 | the count from a day back is an unbroken run of present days that ends in a gap, and it never exceeds the number of days |
| Statistics.CurrentStreak | src/stores/logStore.ts:223-264 | the run of present days ends today when today has an entry, ends yesterday when only yesterday has one, and is 0 otherwise |
| Statistics.RunBackUnique | src/stores/logStore.ts:249-262 | a run counted back from a day has exactly one length, so the streak contract determines the value |
| Statistics.StreakCountsFromYesterday | src/stores/logStore.ts:240-247 | entries yesterday and the day before, none today and none three days back, give a streak of 2 |
| Statistics.RunAtIsMaximalRun | src/stores/logStore.ts:277-291 | the run counted at a position is a block of days stepping down by one that cannot be extended backwards |
| Statistics.RunAt | src/stores/logStore.ts:277-291 | the run ending at a position has length between 1 and the position plus one |
| Statistics.MaxRun | src/stores/logStore.ts:277-293 | the best run over a prefix is at most the prefix length and 0 only for an empty prefix |
| Statistics.MaxRunIsLargest | src/stores/logStore.ts:286-292 | the best run bounds every run ending in the prefix and is reached by one of them |
| Statistics.ScanLongest | src/stores/logStore.ts:277-293 | the loop's result is at least the best and the open run so far, and grows by at most one per remaining pair |
| Statistics.ScanIsMaxRun | src/stores/logStore.ts:277-293 | the loop's `current`/`maxStreak` scan ends with the longest run of the whole list |
| Statistics.LongestStreak | src/stores/logStore.ts:266-294 | 0 exactly for no entries, otherwise between 1 and the number of unique days, and equal to the longest run |
| Statistics.WindowIsRun | src/stores/logStore.ts:277-291 | a window of c consecutive present days shows up in the descending list as a run of length at least c |
| Statistics.LongestAtLeastCurrent | src/stores/logStore.ts:223-294 | the longest streak is never shorter than the current streak |
| Statistics.TagStats | src/stores/logStore.ts:296-309 | a tag is a key exactly when some entry carries it; its count is its number of occurrences over all entries, at least 1 |
| Statistics.TagStatsTotal | src/stores/logStore.ts:296-309 | the counts, summed over the keys, equal the total length of all tag lists |
| Statistics.TagStatsCount | src/stores/logStore.ts:296-309 | `tagCounts[t] \|\| 0` is the number of times the entries carry t, also for a tag that is not a key |
| Statistics.UntaggedIgnored | src/stores/logStore.ts:299-306 | an entry without tags leaves the tag counts unchanged |
| Statistics.AvailableYears | src/stores/logStore.ts:313-317 | strictly descending, never empty, and holds exactly the entries' years, or only the current year when there are no entries |
| Statistics.MonthlyStats | src/stores/logStore.ts:319-344 | exactly the twelve month keys of the year, each counting the entries of that month and year |
| Statistics.MonthlyStep | src/stores/logStore.ts:334-341 | one more entry raises the twelve counts by one exactly when it falls in the selected year |
| Statistics.MonthlyTotal | src/stores/logStore.ts:319-344 | the twelve monthly counts add up to the number of entries in that year |
| Statistics.MaxCount | src/stores/logStore.ts:392 | `Math.max(0, ...)`: at least every listed count, 0 for no keys, and otherwise one of the counts |
| Statistics.MaxDaily | src/stores/logStore.ts:389-392 | 0 without entries, otherwise between 1 and the number of entries |
| Statistics.MaxDailyIsMax | src/stores/logStore.ts:390-392 | the daily maximum is at least every day's count and equals the count of some entry's day |
| Statistics.TallyOf | src/stores/logStore.ts:394-431 | each one-pass counter equals the number of entries satisfying its window predicate |
| Statistics.MonthDaysSeen | src/stores/logStore.ts:406-415 | a month-day pair is recorded exactly when some entry fell on it |
| Statistics.TallyBounds | src/stores/logStore.ts:417-430 | night-owl and early-bird windows are disjoint; long and short sessions never outnumber the entries with a non-zero duration |
| Histograms.Histogram | src/stores/logStore.ts:390-391 | a key is present exactly when it occurs, and its count is its number of occurrences |
| Histograms.HistogramTotal | src/stores/logStore.ts:390-391 | the counts sum to the number of keys counted |
| Achievements.TakeSnapshot | src/stores/logStore.ts:385-431 | the statistics agree: no streak and no daily maximum without entries, no day above the total, and the hour windows and duration ranges never share an entry |
| Achievements.Progress | src/stores/logStore.ts:433-457 | a `time` badge other than `early_bird` and a tag badge with an empty tag stay at 0; a date match progresses to at most 1 |
| Achievements.EvaluateTable | src/stores/logStore.ts:433-464 | one result per badge in table order, carrying its progress; unlocked exactly when progress reaches the target; a date match progresses to at most 1 |
| Achievements.Evaluate | src/stores/logStore.ts:348-464 | one status per badge of the table, in order, unlocked exactly when the badge is unlocked for the entries |
| Achievements.UnlockedIff | src/stores/logStore.ts:433-464 | a badge of the table is unlocked exactly when its progress reaches its target |
| Achievements.MilestoneRules | src/stores/logStore.ts:350-382 | each count badge, and `the_answer` at 42, is unlocked exactly when the total reaches its target |
| Achievements.StreakRules | src/stores/logStore.ts:357-365 | streak badges read the streak statistic; intensity badges read the daily maximum |
| Achievements.TallyRules | src/stores/logStore.ts:368-374 | the timing, weekend and duration badges read their counters with thresholds 5, 10, 10, 10 and 5 |
| Achievements.MatchRules | src/stores/logStore.ts:377-381 | `adventurer` needs a `Vacation` count; the two date badges need their month-day pair |
| Achievements.CountBadges | src/stores/logStore.ts:350-382 | for an entry list, the milestones and `the_answer` unlock at 1, 10, 50, 100, 500 and 42 entries, and `the_answer` stays unlocked past 42 |
| Achievements.StreakBadges | src/stores/logStore.ts:357-360 | streak badges unlock on the longest streak, not the current one |
| Achievements.DailyMaxReaches | src/stores/logStore.ts:390-392 | the daily maximum reaches k exactly when some entry's day carries at least k entries |
| Achievements.IntensityBadges | src/stores/logStore.ts:363-365 | intensity badges unlock exactly when some day carries at least 2, 3 or 5 entries |
| Achievements.WindowBadges | src/stores/logStore.ts:368-374 | the timing, weekend and duration badges unlock exactly when enough entries fall in their window |
| Achievements.MatchBadges | src/stores/logStore.ts:377-381 | `adventurer` unlocks on one entry tagged `Vacation`; `cupid` and `new_year` unlock on one entry dated Feb 14 or Jan 1 |
| Achievements.NewlyUnlocked | src/stores/logStore.ts:63-65 | an id is announced exactly when it is unlocked after and not before, and, for an evaluation with distinct ids, each id at most once |
| Achievements.SnapshotDiff | src/stores/logStore.ts:63-65 | for two statistics snapshots, a badge is announced exactly when it is unlocked in the second and not in the first, without repeats |
| Achievements.UnlockDiff | src/stores/logStore.ts:35-65 | for two entry lists, a badge is announced exactly when it is unlocked for the second and not for the first, without repeats |
| Mutations.InsertIndex | src/stores/logStore.ts:51-52 | the insertion point: every later entry is strictly older, and the entry before it is no newer |
| Mutations.InsertNewestFirst | src/stores/logStore.ts:51-52 | the result holds the old entries plus the new one |
| Mutations.InsertKeepsOrder | src/stores/logStore.ts:51-52 | inserting into a newest-first list keeps it newest first |
| Mutations.SortNewestFirst | src/stores/logStore.ts:25 | the sort returns a newest-first permutation of its input |
| Mutations.SortKeepsSorted | src/stores/logStore.ts:52 | sorting a newest-first list leaves it unchanged, because equal timestamps keep their order |
| Mutations.PushSortIsInsertion | src/stores/logStore.ts:51-52 | push-then-sort on a sorted list is insertion at the right place |
| Mutations.PushSortInsertsIntoSorted | src/stores/logStore.ts:51-52 | push-then-sort of any list equals inserting into its sorted form |
| Mutations.WithoutId | src/stores/logStore.ts:82 | the filter never lengthens the list |
| Mutations.WithoutIdMembers | src/stores/logStore.ts:82 | the rollback filter keeps exactly the entries with another id |
| Mutations.WithoutIdIsFilter | src/stores/logStore.ts:82 | each entry with another id occurs as often as in the list, none with the id occurs, and the list order is kept |
| Mutations.WithoutIdKeepsOrder | src/stores/logStore.ts:82 | filtering keeps the newest-first order |
| Mutations.AddQuickLog | src/stores/logStore.ts:33-86 | the list stays newest first; on success it holds the old entries plus the new one and announces exactly the newly unlocked badges; on failure the new id is gone and the error is reported |
| Mutations.RollbackGivesSorted | src/stores/logStore.ts:80-85 | removing the new id after push-and-sort gives the sorted previous list with that id filtered out too |
| Mutations.WithoutInserted | src/stores/logStore.ts:80-85 | filtering out the id of an entry inserted into a list gives the same as filtering that list |
| Mutations.RollbackRestoresIds | src/stores/logStore.ts:80-85 | with a fresh id, a failed add restores the previous entries and their id set |
| Mutations.RollbackRestoresList | src/stores/logStore.ts:80-85 | with a fresh id and a sorted list, a failed add restores the list exactly |
| Mutations.AddedIsInsertion | src/stores/logStore.ts:51-55 | a successful add on a sorted list inserts the new entry in place |
| Mutations.TenthEntryNotices | src/stores/logStore.ts:63-65 | the tenth entry announces `getting_started` and not `first_step` |
| Mutations.AddCountsDefaultTag | src/stores/logStore.ts:41-52 | a successful add raises the count of `Make Love` by one and leaves every other tag's count unchanged |
| Mutations.PushCountsTags | src/stores/logStore.ts:51-52 | pushing an entry and sorting adds exactly that entry's tags to the tag counts |
| Mutations.AddKeepsMilestones | src/stores/logStore.ts:350-354 | a successful add never takes a milestone badge away |
| Mutations.IndexOf | src/stores/logStore.ts:99 | `findIndex`: none exactly when no entry has the id, otherwise the first position with it |
| Mutations.RemoveLog | src/stores/logStore.ts:98-113 | an unknown id or a failed delete leaves the list exactly as it was; a successful delete removes the first entry with the id |
| Mutations.RemoveKeepsOrder | src/stores/logStore.ts:98-113 | a removal keeps the newest-first order |
| Mutations.RemoveDropsId | src/stores/logStore.ts:98-113 | with unique ids, a successful removal leaves no entry with the id |
| Mutations.ReplaceFirst | src/stores/logStore.ts:89-92 | the length and the id set are unchanged; an unknown id leaves the list as it was; otherwise the first entry with the id is replaced in place |
| Mutations.UpdateEntry | src/stores/logStore.ts:88-96 | the error is passed on exactly when the write fails; whatever the outcome, the length and ids are kept, an unknown id changes nothing, and otherwise the first entry with the id is replaced in place |
| Mutations.UpdateFailureKeepsChange | src/stores/logStore.ts:88-96 | a failed write leaves a changed entry changed, the same list as a successful write, while a failed removal restores the list: nothing is rolled back |
| Mutations.UpdateKeepsOrder | src/stores/logStore.ts:88-96 | an update that keeps the entry's timestamp keeps the newest-first order |
| Mutations.LoadLogs | src/stores/logStore.ts:20-31 | a successful fetch yields a newest-first permutation of the fetched entries; a failed one keeps the previous list |
| Settings.AddTag | src/stores/settingsStore.ts:24-29 | an empty or already listed tag changes nothing; otherwise the tag ends up listed, the old list is a prefix, nothing else is added, and a duplicate-free list stays so |
| Settings.RemoveTag | src/stores/settingsStore.ts:31-33 | the tag is absent afterwards; every other tag keeps its number of copies and the remaining tags keep their order; theme and security are untouched |
| Settings.Without | src/stores/settingsStore.ts:32 | no copy of the tag remains and the list does not grow |
| Settings.WithoutKeepsOthers | src/stores/settingsStore.ts:32 | every other tag keeps its number of occurrences, and the result is a subsequence of the input |
| Settings.RemoveUndoesAdd | src/stores/settingsStore.ts:24-33 | adding a tag that was not listed and removing it again restores the settings |
| Settings.AddTagIdempotent | src/stores/settingsStore.ts:24-29 | adding a tag twice is adding it once |

## Left out

- `exportData`, `importData` and `clearAllData`: JSON text and bulk storage I/O, outside the
  statistics and list logic.
- `generateDemoData`: random data.
- `useDialog`, i18n, the entry point and build configuration: user interface and tooling.
- Storage (`dbService`) is reduced to a success flag per write and an optional fetch result. Concurrent, interleaved mutations
  are not modelled: each operation is applied whole.
- uuid generation: the id is a parameter. The clock (`new Date()`, `useNow`) and local time-zone
  decoding are parameters or pre-decoded fields of `Instant`.
- Toast events: only the list of announced badge ids is modelled, not the events themselves.
- The badges' names, descriptions and icons: display text only.
- `updateEntry`'s JSON deep copy is modelled as plain replacement.
- `Math.round` of the millisecond difference in the longest streak: consecutive day keys are
  modelled as ordinals one apart, which makes daylight-saving days exact.
- Years 0-99 in `monthlyStats`: there, `new Date(year, m, 1)` maps to 1900+year and the keys
  would not match. The model keys months by year number directly.
- Object-prototype keys such as `constructor` as tag names are not modelled; tags are plain
  strings.
- `maxDaily`'s spread of all daily counts into `Math.max` is not bounded, so the argument-count
  limit of very large lists is not modelled.
- Settings persistence to local storage is left out.
- Mutations.SortNewestFirst: stability is not stated as a general ensures. It is given by the
  definition as an insertion sort, whose result every stable sort shares, and by
  `SortKeepsSorted` and `PushSortIsInsertion`.
- Mutations.UpdateEntry: the stored record is not modelled. The write is a `put`, which
  also stores an entry whose id is not in the list, so the store and the list can then differ.
  The order is shown to be kept only when the timestamp is unchanged, because the list is not
  sorted again.
- Statistics.MaxDaily: the function's own contract bounds the value. That it is the largest day
  count is stated in `Statistics.MaxDailyIsMax`.
- Mutations.WithoutId: the function's own contract is a length bound. What it keeps, how often
  and in which order, is stated in `Mutations.WithoutIdMembers` and `Mutations.WithoutIdIsFilter`.
- Durations are whole minutes (`Option<int>`). The source's duration is a JavaScript number, so a
  fractional value such as 14.5 (a quickie there) and `NaN` (falsy there, so in neither range) are
  not modelled.

=== FILE: achievements.dfy ===
/** The achievement engine: a fixed table of badges, each evaluated against
    the statistics of the current list of entries. */
module Achievements {
  import opened Entries
  import opened Statistics

  /** What a badge measures, with the parameters the table gives it. The
      `Time` window and the duration thresholds are carried as the table
      writes them; the counters they select use fixed bounds. */
  datatype BadgeKind =
    | Count
    | ExactCount
    | Streak
    | DailyMax
    | Time(start: int, end: int)
    | TimeNight
    | Weekend
    | DurationUnder(minutes: int)
    | DurationOver(minutes: int)
    | Tag(tag: string)
    | DateMatch(month0: int, dayOfMonth: int)

  /** The ids of the badge table, one constructor per id (`first_step` is
      `FirstStep`, and so on). */
  datatype BadgeId =
    | FirstStep
    | GettingStarted
    | Enthusiast
    | Centurion
    | Legend
    | WarmingUp
    | OnFire
    | Unstoppable
    | MonthMaster
    | DoubleTrouble
    | HatTrick
    | Insatiable
    | EarlyBird
    | NightOwl
    | WeekendWarrior
    | Quickie
    | Marathon
    | Adventurer
    | Cupid
    | NewYear
    | TheAnswer

  /** A badge definition; `secret` only hides a locked badge from view. */
  datatype Badge = Badge(id: BadgeId, target: int, kind: BadgeKind, secret: bool)

  /** The badge table, in display order. */
  const Badges: seq<Badge> := [
    // Milestones
    Badge(FirstStep, 1, Count, false),
    Badge(GettingStarted, 10, Count, false),
    Badge(Enthusiast, 50, Count, false),
    Badge(Centurion, 100, Count, false),
    Badge(Legend, 500, Count, false),
    // Streaks
    Badge(WarmingUp, 3, Streak, false),
    Badge(OnFire, 7, Streak, false),
    Badge(Unstoppable, 14, Streak, false),
    Badge(MonthMaster, 30, Streak, false),
    // Intensity
    Badge(DoubleTrouble, 2, DailyMax, false),
    Badge(HatTrick, 3, DailyMax, false),
    Badge(Insatiable, 5, DailyMax, false),
    // Timing and context
    Badge(EarlyBird, 5, Time(5, 9), false),
    Badge(NightOwl, 10, TimeNight, false),
    Badge(WeekendWarrior, 10, Weekend, false),
    // Duration
    Badge(Quickie, 10, DurationUnder(15), false),
    Badge(Marathon, 5, DurationOver(45), false),
    // Tags
    Badge(Adventurer, 1, Tag("Vacation"), false),
    // Secret
    Badge(Cupid, 1, DateMatch(1, 14), true),
    Badge(NewYear, 1, DateMatch(0, 1), true),
    Badge(TheAnswer, 42, ExactCount, true)
  ]

  /** The statistics the table reads, computed once per evaluation. */
  datatype Snapshot = Snapshot(
    total: nat,
    streak: nat,     // the longest streak, not the current one
    maxDaily: nat,
    tagCounts: map<string, nat>,
    tally: Tally
  )

  /** The statistics of an entry list. They agree with each other: no
      streak and no daily maximum without entries, no more entries on one
      day than in total, and the two hour windows and the two duration
      ranges never share an entry. */
  function TakeSnapshot(logs: seq<LogEntry>): (s: Snapshot)
    ensures s.total == |logs|
    ensures s.streak == 0 <==> s.total == 0
    ensures s.maxDaily == 0 <==> s.total == 0
    ensures s.maxDaily <= s.total
    ensures s.tally.nightOwl + s.tally.earlyBird <= s.total
    ensures s.tally.marathon + s.tally.quickie <= s.total
  {
    TallyBounds(logs);
    Snapshot(|logs|, LongestStreak(logs), MaxDaily(logs), TagStats(logs), TallyOf(logs))
  }

  /** The statistic a badge's kind selects. A `Time` badge only reads the
      early-bird counter when its id is `early_bird`; an empty tag reads
      nothing; a date match is 1 when some entry fell on that month and day. */
  function Progress(b: Badge, s: Snapshot): (p: nat)
    ensures b.kind.Time? && b.id != EarlyBird ==> p == 0
    ensures b.kind.Tag? && b.kind.tag == "" ==> p == 0
    ensures b.kind.DateMatch? ==> p <= 1
  {
    match b.kind
    case Count => s.total
    case ExactCount => s.total
    case Streak => s.streak
    case DailyMax => s.maxDaily
    case Tag(t) => if t != "" && t in s.tagCounts then s.tagCounts[t] else 0
    case Weekend => s.tally.weekend
    case Time(_, _) => if b.id == EarlyBird then s.tally.earlyBird else 0
    case TimeNight => s.tally.nightOwl
    case DurationOver(_) => s.tally.marathon
    case DurationUnder(_) => s.tally.quickie
    case DateMatch(m, d) => if (m, d) in s.tally.monthDays then 1 else 0
  }

  datatype BadgeStatus = BadgeStatus(badge: Badge, progress: nat, unlocked: bool)

  /** Every badge of a table, in order, with its progress and whether that
      progress reaches the target. */
  function EvaluateTable(table: seq<Badge>, s: Snapshot): (r: seq<BadgeStatus>)
    ensures |r| == |table|
    ensures forall i :: 0 <= i < |r| ==> r[i].badge == table[i] && r[i].progress == Progress(table[i], s)
    ensures forall i :: 0 <= i < |r| ==> (r[i].unlocked <==> r[i].progress >= table[i].target)
    ensures forall i :: 0 <= i < |r| && table[i].kind.DateMatch? ==> r[i].progress <= 1
  {
    seq(|table|, i requires 0 <= i < |table| =>
      var p := Progress(table[i], s);
      BadgeStatus(table[i], p, p >= table[i].target))
  }

  /** `achievements`: the badge table evaluated against the entries. */
  function Evaluate(logs: seq<LogEntry>): (r: seq<BadgeStatus>)
    ensures |r| == |Badges|
    ensures forall i :: 0 <= i < |r| ==> r[i].badge == Badges[i] && (r[i].unlocked <==> Unlocked(logs, Badges[i].id))
  {
    var s := TakeSnapshot(logs);
    var r := EvaluateTable(Badges, s);
    assert forall i :: 0 <= i < |r| ==> (r[i].unlocked <==> Unlocked(logs, Badges[i].id)) by {
      forall i | 0 <= i < |r| {
        UnlockedIff(s, Badges[i]);
      }
    }
    r
  }

  /** The ids of the unlocked badges of an evaluation. */
  function UnlockedIds(r: seq<BadgeStatus>): set<BadgeId> {
    set i | 0 <= i < |r| && r[i].unlocked :: r[i].badge.id
  }

  /** Whether the badge with the given id is unlocked against a snapshot. */
  predicate UnlockedIn(s: Snapshot, id: BadgeId) {
    id in UnlockedIds(EvaluateTable(Badges, s))
  }

  /** Whether the badge with the given id is unlocked for these entries. */
  predicate Unlocked(logs: seq<LogEntry>, id: BadgeId) {
    UnlockedIn(TakeSnapshot(logs), id)
  }

  /** The ids of the table are pairwise distinct. */
  lemma BadgeIdsDistinct()
    ensures forall i, j :: 0 <= i < j < |Badges| ==> Badges[i].id != Badges[j].id
  {
    assert forall i :: 0 <= i < |Badges| ==> Ordinal(Badges[i].id) == i;
  }

  /** The position of an id in the badge table. */
  function Ordinal(id: BadgeId): nat {
    match id
    case FirstStep => 0
    case GettingStarted => 1
    case Enthusiast => 2
    case Centurion => 3
    case Legend => 4
    case WarmingUp => 5
    case OnFire => 6
    case Unstoppable => 7
    case MonthMaster => 8
    case DoubleTrouble => 9
    case HatTrick => 10
    case Insatiable => 11
    case EarlyBird => 12
    case NightOwl => 13
    case WeekendWarrior => 14
    case Quickie => 15
    case Marathon => 16
    case Adventurer => 17
    case Cupid => 18
    case NewYear => 19
    case TheAnswer => 20
  }

  /** The badges unlocked in `after` whose ids were not unlocked before, in
      table order: one notification each. */
  function NewlyUnlocked(before: set<BadgeId>, after: seq<BadgeStatus>): (r: seq<BadgeId>)
    ensures forall id :: id in r <==> id in UnlockedIds(after) && id !in before
    ensures (forall i, j :: 0 <= i < j < |after| ==> after[i].badge.id != after[j].badge.id) ==>
              forall i, j :: 0 <= i < j < |r| ==> r[i] != r[j]
  {
    if |after| == 0 then []
    else
      var pre := after[..|after| - 1];
      var last := after[|after| - 1];
      var r := NewlyUnlocked(before, pre);
      assert UnlockedIds(after) == UnlockedIds(pre) + (if last.unlocked then {last.badge.id} else {}) by {
        assert forall i :: 0 <= i < |pre| ==> pre[i] == after[i];
      }
      assert (forall i, j :: 0 <= i < j < |after| ==> after[i].badge.id != after[j].badge.id) ==>
               last.badge.id !in UnlockedIds(pre) by {
        if last.badge.id in UnlockedIds(pre) {
          var i :| 0 <= i < |pre| && pre[i].unlocked && pre[i].badge.id == last.badge.id;
          assert after[i].badge.id == after[|after| - 1].badge.id;
        }
      }
      r + (if last.unlocked && last.badge.id !in before then [last.badge.id] else [])
  }

  /** The badges unlocked against `after` and not against `before`. */
  function SnapshotDiff(before: Snapshot, after: Snapshot): (r: seq<BadgeId>)
    ensures forall id :: id in r <==> UnlockedIn(after, id) && !UnlockedIn(before, id)
    ensures forall i, j :: 0 <= i < j < |r| ==> r[i] != r[j]
  {
    BadgeIdsDistinct();
    NewlyUnlocked(UnlockedIds(EvaluateTable(Badges, before)), EvaluateTable(Badges, after))
  }

  /** The unlock diff around a change from `before` to `after`: every badge
      unlocked after and not before, once each. */
  function UnlockDiff(before: seq<LogEntry>, after: seq<LogEntry>): (r: seq<BadgeId>)
    ensures forall id :: id in r <==> Unlocked(after, id) && !Unlocked(before, id)
    ensures forall i, j :: 0 <= i < j < |r| ==> r[i] != r[j]
  {
    SnapshotDiff(TakeSnapshot(before), TakeSnapshot(after))
  }

  /** A badge of the table is unlocked exactly when its progress reaches its target. */
  lemma UnlockedIff(s: Snapshot, b: Badge)
    requires b in Badges
    ensures UnlockedIn(s, b.id) <==> Progress(b, s) >= b.target
  {
    BadgeIdsDistinct();
    var r := EvaluateTable(Badges, s);
    var k :| 0 <= k < |Badges| && Badges[k] == b;
    if UnlockedIn(s, b.id) {
      var i :| 0 <= i < |r| && r[i].unlocked && r[i].badge.id == b.id;
      assert i == k;
    }
  }

  /** The rules of the table read against a snapshot: milestones. */
  lemma MilestoneRules(s: Snapshot)
    ensures UnlockedIn(s, FirstStep) <==> s.total >= 1
    ensures UnlockedIn(s, GettingStarted) <==> s.total >= 10
    ensures UnlockedIn(s, Enthusiast) <==> s.total >= 50
    ensures UnlockedIn(s, Centurion) <==> s.total >= 100
    ensures UnlockedIn(s, Legend) <==> s.total >= 500
    ensures UnlockedIn(s, TheAnswer) <==> s.total >= 42
  {
    assert UnlockedIn(s, FirstStep) <==> s.total >= 1 by {
      UnlockedIff(s, Badge(FirstStep, 1, Count, false));
    }
    assert UnlockedIn(s, GettingStarted) <==> s.total >= 10 by {
      UnlockedIff(s, Badge(GettingStarted, 10, Count, false));
    }
    assert UnlockedIn(s, Enthusiast) <==> s.total >= 50 by {
      UnlockedIff(s, Badge(Enthusiast, 50, Count, false));
    }
    assert UnlockedIn(s, Centurion) <==> s.total >= 100 by {
      UnlockedIff(s, Badge(Centurion, 100, Count, false));
    }
    assert UnlockedIn(s, Legend) <==> s.total >= 500 by {
      UnlockedIff(s, Badge(Legend, 500, Count, false));
    }
    assert UnlockedIn(s, TheAnswer) <==> s.total >= 42 by {
      UnlockedIff(s, Badge(TheAnswer, 42, ExactCount, true));
    }
  }

  /** The rules of the table read against a snapshot: streaks and intensity. */
  lemma StreakRules(s: Snapshot)
    ensures UnlockedIn(s, WarmingUp) <==> s.streak >= 3
    ensures UnlockedIn(s, OnFire) <==> s.streak >= 7
    ensures UnlockedIn(s, Unstoppable) <==> s.streak >= 14
    ensures UnlockedIn(s, MonthMaster) <==> s.streak >= 30
    ensures UnlockedIn(s, DoubleTrouble) <==> s.maxDaily >= 2
    ensures UnlockedIn(s, HatTrick) <==> s.maxDaily >= 3
    ensures UnlockedIn(s, Insatiable) <==> s.maxDaily >= 5
  {
    assert UnlockedIn(s, WarmingUp) <==> s.streak >= 3 by {
      UnlockedIff(s, Badge(WarmingUp, 3, Streak, false));
    }
    assert UnlockedIn(s, OnFire) <==> s.streak >= 7 by {
      UnlockedIff(s, Badge(OnFire, 7, Streak, false));
    }
    assert UnlockedIn(s, Unstoppable) <==> s.streak >= 14 by {
      UnlockedIff(s, Badge(Unstoppable, 14, Streak, false));
    }
    assert UnlockedIn(s, MonthMaster) <==> s.streak >= 30 by {
      UnlockedIff(s, Badge(MonthMaster, 30, Streak, false));
    }
    assert UnlockedIn(s, DoubleTrouble) <==> s.maxDaily >= 2 by {
      UnlockedIff(s, Badge(DoubleTrouble, 2, DailyMax, false));
    }
    assert UnlockedIn(s, HatTrick) <==> s.maxDaily >= 3 by {
      UnlockedIff(s, Badge(HatTrick, 3, DailyMax, false));
    }
    assert UnlockedIn(s, Insatiable) <==> s.maxDaily >= 5 by {
      UnlockedIff(s, Badge(Insatiable, 5, DailyMax, false));
    }
  }

  /** The rules of the table read against a snapshot: the counters. */
  lemma TallyRules(s: Snapshot)
    ensures UnlockedIn(s, EarlyBird) <==> s.tally.earlyBird >= 5
    ensures UnlockedIn(s, NightOwl) <==> s.tally.nightOwl >= 10
    ensures UnlockedIn(s, WeekendWarrior) <==> s.tally.weekend >= 10
    ensures UnlockedIn(s, Quickie) <==> s.tally.quickie >= 10
    ensures UnlockedIn(s, Marathon) <==> s.tally.marathon >= 5
  {
    assert UnlockedIn(s, EarlyBird) <==> s.tally.earlyBird >= 5 by {
      UnlockedIff(s, Badge(EarlyBird, 5, Time(5, 9), false));
    }
    assert UnlockedIn(s, NightOwl) <==> s.tally.nightOwl >= 10 by {
      UnlockedIff(s, Badge(NightOwl, 10, TimeNight, false));
    }
    assert UnlockedIn(s, WeekendWarrior) <==> s.tally.weekend >= 10 by {
      UnlockedIff(s, Badge(WeekendWarrior, 10, Weekend, false));
    }
    assert UnlockedIn(s, Quickie) <==> s.tally.quickie >= 10 by {
      UnlockedIff(s, Badge(Quickie, 10, DurationUnder(15), false));
    }
    assert UnlockedIn(s, Marathon) <==> s.tally.marathon >= 5 by {
      UnlockedIff(s, Badge(Marathon, 5, DurationOver(45), false));
    }
  }

  /** The rules of the table read against a snapshot: tag and date matches. */
  lemma MatchRules(s: Snapshot)
    ensures UnlockedIn(s, Adventurer) <==> "Vacation" in s.tagCounts && s.tagCounts["Vacation"] >= 1
    ensures UnlockedIn(s, Cupid) <==> (1, 14) in s.tally.monthDays
    ensures UnlockedIn(s, NewYear) <==> (0, 1) in s.tally.monthDays
  {
    assert UnlockedIn(s, Adventurer) <==> "Vacation" in s.tagCounts && s.tagCounts["Vacation"] >= 1 by {
      UnlockedIff(s, Badge(Adventurer, 1, Tag("Vacation"), false));
    }
    assert UnlockedIn(s, Cupid) <==> (1, 14) in s.tally.monthDays by {
      UnlockedIff(s, Badge(Cupid, 1, DateMatch(1, 14), true));
    }
    assert UnlockedIn(s, NewYear) <==> (0, 1) in s.tally.monthDays by {
      UnlockedIff(s, Badge(NewYear, 1, DateMatch(0, 1), true));
    }
  }

  /** The milestone badges and the secret `the_answer` badge read the total
      number of entries; `the_answer` stays unlocked past 42. */
  lemma CountBadges(logs: seq<LogEntry>)
    ensures Unlocked(logs, FirstStep) <==> |logs| >= 1
    ensures Unlocked(logs, GettingStarted) <==> |logs| >= 10
    ensures Unlocked(logs, Enthusiast) <==> |logs| >= 50
    ensures Unlocked(logs, Centurion) <==> |logs| >= 100
    ensures Unlocked(logs, Legend) <==> |logs| >= 500
    ensures Unlocked(logs, TheAnswer) <==> |logs| >= 42
  {
    MilestoneRules(TakeSnapshot(logs));
  }

  /** Streak badges read the longest streak, not the current one. */
  lemma StreakBadges(logs: seq<LogEntry>)
    ensures Unlocked(logs, WarmingUp) <==> LongestStreak(logs) >= 3
    ensures Unlocked(logs, OnFire) <==> LongestStreak(logs) >= 7
    ensures Unlocked(logs, Unstoppable) <==> LongestStreak(logs) >= 14
    ensures Unlocked(logs, MonthMaster) <==> LongestStreak(logs) >= 30
  {
    StreakRules(TakeSnapshot(logs));
  }

  /** Some day carries at least `k` entries exactly when the daily maximum reaches `k`. */
  lemma DailyMaxReaches(logs: seq<LogEntry>, k: nat)
    requires k >= 1
    ensures MaxDaily(logs) >= k <==> exists i :: 0 <= i < |logs| && DayCount(logs, logs[i].at.day) >= k
  {
    MaxDailyIsMax(logs);
    if MaxDaily(logs) >= k {
      var i :| 0 <= i < |logs| && DayCount(logs, logs[i].at.day) == MaxDaily(logs);
    }
  }

  /** Intensity badges unlock when some day carries enough entries. */
  lemma IntensityBadges(logs: seq<LogEntry>)
    ensures Unlocked(logs, DoubleTrouble) <==> exists i :: 0 <= i < |logs| && DayCount(logs, logs[i].at.day) >= 2
    ensures Unlocked(logs, HatTrick) <==> exists i :: 0 <= i < |logs| && DayCount(logs, logs[i].at.day) >= 3
    ensures Unlocked(logs, Insatiable) <==> exists i :: 0 <= i < |logs| && DayCount(logs, logs[i].at.day) >= 5
  {
    StreakRules(TakeSnapshot(logs));
    DailyMaxReaches(logs, 2);
    DailyMaxReaches(logs, 3);
    DailyMaxReaches(logs, 5);
  }

  /** Timing, context and duration badges count the entries in their window. */
  lemma WindowBadges(logs: seq<LogEntry>)
    ensures Unlocked(logs, EarlyBird) <==> CountIf(logs, IsEarlyBird) >= 5
    ensures Unlocked(logs, NightOwl) <==> CountIf(logs, IsNightOwl) >= 10
    ensures Unlocked(logs, WeekendWarrior) <==> CountIf(logs, IsWeekend) >= 10
    ensures Unlocked(logs, Quickie) <==> CountIf(logs, IsQuickie) >= 10
    ensures Unlocked(logs, Marathon) <==> CountIf(logs, IsMarathon) >= 5
  {
    TallyRules(TakeSnapshot(logs));
  }

  /** The tag badge and the date badges unlock on a single matching entry. */
  lemma MatchBadges(logs: seq<LogEntry>)
    ensures Unlocked(logs, Adventurer) <==> exists i :: 0 <= i < |logs| && "Vacation" in logs[i].tags
    ensures Unlocked(logs, Cupid) <==>
      exists i :: 0 <= i < |logs| && logs[i].at.month0 == 1 && logs[i].at.dayOfMonth == 14
    ensures Unlocked(logs, NewYear) <==>
      exists i :: 0 <= i < |logs| && logs[i].at.month0 == 0 && logs[i].at.dayOfMonth == 1
  {
    var s := TakeSnapshot(logs);
    assert Unlocked(logs, Adventurer) <==> exists i :: 0 <= i < |logs| && "Vacation" in logs[i].tags by {
      MatchRules(s);
    }
    assert Unlocked(logs, Cupid) <==>
      exists i :: 0 <= i < |logs| && logs[i].at.month0 == 1 && logs[i].at.dayOfMonth == 14 by {
      MatchRules(s);
      MonthDaysSeen(logs, 1, 14);
    }
    assert Unlocked(logs, NewYear) <==>
      exists i :: 0 <= i < |logs| && logs[i].at.month0 == 0 && logs[i].at.dayOfMonth == 1 by {
      MatchRules(s);
      MonthDaysSeen(logs, 0, 1);
    }
  }
}

=== FILE: entries.dfy ===
/** The record the log store keeps for every recorded moment, with the local
    calendar fields that the statistics read decoded ahead of time. */
module Entries {

  datatype Option<+T> = None | Some(value: T)

  /** A moment as the observer's local time zone sees it. `day` stands for
      the `YYYY-MM-DD` key: an ordinal of the local calendar day, so two keys
      are consecutive days exactly when their ordinals differ by one, and the
      descending string order of keys is the descending order of ordinals. */
  datatype Instant = Instant(
    timestamp: int,   // milliseconds since the epoch
    day: int,         // local calendar-day ordinal (the `dateStr` key)
    year: int,        // local full year
    month0: int,      // local month, 0 = January
    dayOfMonth: int,  // local day of the month, 1..31
    hour: int,        // local hour, 0..23
    weekday: int      // local weekday, 0 = Sunday .. 6 = Saturday
  )

  /** A log entry. An absent tag list is the empty sequence: every reader of
      `tags` treats the two alike. */
  datatype LogEntry = LogEntry(
    id: string,
    at: Instant,
    duration: Option<int>,  // minutes
    tags: seq<string>,
    note: Option<string>,
    createdAt: int,
    updatedAt: int
  )

  /** The ranges a real local-time decoding produces. */
  predicate WellFormedInstant(t: Instant) {
    && 0 <= t.month0 < 12
    && 1 <= t.dayOfMonth <= 31
    && 0 <= t.hour < 24
    && 0 <= t.weekday < 7
  }

  predicate AllWellFormed(logs: seq<LogEntry>) {
    forall i :: 0 <= i < |logs| ==> WellFormedInstant(logs[i].at)
  }

  /** Number of entries satisfying `p`, counted front to back like a
      `forEach` over the list. */
  function CountIf(logs: seq<LogEntry>, p: LogEntry -> bool): nat
  {
    if |logs| == 0 then 0
    else CountIf(logs[..|logs| - 1], p) + (if p(logs[|logs| - 1]) then 1 else 0)
  }

  /** The ids present in a list of entries. */
  function Ids(logs: seq<LogEntry>): set<string> {
    set e | e in logs :: e.id
  }

  /** Newest first: timestamps never increase along the list. */
  predicate NewestFirst(logs: seq<LogEntry>) {
    forall i, j :: 0 <= i < j < |logs| ==> logs[i].at.timestamp >= logs[j].at.timestamp
  }

  lemma {:induction false} CountIfBound(logs: seq<LogEntry>, p: LogEntry -> bool)
    ensures CountIf(logs, p) <= |logs|
  {
    if |logs| > 0 {
      CountIfBound(logs[..|logs| - 1], p);
    }
  }

  /** Two predicates no entry satisfies together count at most the whole list. */
  lemma {:induction false} CountIfDisjoint(logs: seq<LogEntry>, p: LogEntry -> bool, q: LogEntry -> bool)
    requires forall e :: !(p(e) && q(e))
    ensures CountIf(logs, p) + CountIf(logs, q) <= |logs|
  {
    if |logs| > 0 {
      CountIfDisjoint(logs[..|logs| - 1], p, q);
    }
  }

  /** Two disjoint predicates that both imply `q` together count at most as many as `q`. */
  lemma {:induction false} CountIfDisjointWithin(logs: seq<LogEntry>, p: LogEntry -> bool, p': LogEntry -> bool, q: LogEntry -> bool)
    requires forall e :: !(p(e) && p'(e))
    requires forall e :: (p(e) || p'(e)) ==> q(e)
    ensures CountIf(logs, p) + CountIf(logs, p') <= CountIf(logs, q)
  {
    if |logs| > 0 {
      CountIfDisjointWithin(logs[..|logs| - 1], p, p', q);
    }
  }
}

=== FILE: histograms.dfy ===
/** A count of occurrences per key, built the way the log store builds its
    records of counts: one pass over the keys, `counts[k] = (counts[k] || 0) + 1`. */
module Histograms {

  /** How many times `k` occurs in `ks`. */
  function Occurrences<K(==)>(ks: seq<K>, k: K): nat
  {
    if |ks| == 0 then 0
    else Occurrences(ks[..|ks| - 1], k) + (if ks[|ks| - 1] == k then 1 else 0)
  }

  /** A key occurs exactly when it is in the list. */
  lemma {:induction false} OccurrencesPositive<K>(ks: seq<K>, k: K)
    ensures Occurrences(ks, k) > 0 <==> k in ks
  {
    if |ks| > 0 {
      OccurrencesPositive(ks[..|ks| - 1], k);
      assert ks == ks[..|ks| - 1] + [ks[|ks| - 1]];
    }
  }

  /** A key never occurs more often than the list is long. */
  lemma {:induction false} OccurrencesBound<K>(ks: seq<K>, k: K)
    ensures Occurrences(ks, k) <= |ks|
  {
    if |ks| > 0 {
      OccurrencesBound(ks[..|ks| - 1], k);
    }
  }

  /** `counts[k] || 0`: the count of a key, 0 when it has none. */
  function CountOf<K>(h: map<K, nat>, k: K): nat {
    if k in h then h[k] else 0
  }

  /** The counts map of a list of keys: a key is present exactly when it
      occurs, and its count is its number of occurrences. */
  function Histogram<K(==, !new)>(ks: seq<K>): (h: map<K, nat>)
    ensures forall k :: k in h <==> k in ks
    ensures forall k :: k in h ==> h[k] == Occurrences(ks, k)
  {
    if |ks| == 0 then map[]
    else
      var h := Histogram(ks[..|ks| - 1]);
      var k := ks[|ks| - 1];
      OccurrencesPositive(ks[..|ks| - 1], k);
      Bump(h, k)
  }

  /** One more occurrence of `k`: `counts[k] = (counts[k] || 0) + 1`. */
  function Bump<K(==, !new)>(h: map<K, nat>, k: K): map<K, nat> {
    h[k := (if k in h then h[k] else 0) + 1]
  }

  /** The key list after seeing `k`: listed once, at its first occurrence. */
  function Listed<K(==)>(r: seq<K>, k: K): seq<K> {
    if k in r then r else r + [k]
  }

  /** The keys of a list in first-occurrence order. */
  function KeysInOrder<K(==, !new)>(ks: seq<K>): (r: seq<K>)
    ensures forall k :: k in r <==> k in ks
    ensures forall i, j :: 0 <= i < j < |r| ==> r[i] != r[j]
  {
    if |ks| == 0 then []
    else
      var r := KeysInOrder(ks[..|ks| - 1]);
      Listed(r, ks[|ks| - 1])
  }

  /** The sum of the counts of the listed keys. */
  function SumOver<K(==, !new)>(h: map<K, nat>, keys: seq<K>): nat
    requires forall k :: k in keys ==> k in h
  {
    if |keys| == 0 then 0
    else SumOver(h, keys[..|keys| - 1]) + h[keys[|keys| - 1]]
  }

  /** Changing the count of a key that is not listed leaves the sum alone. */
  lemma {:induction false} SumOverUnlisted<K(!new)>(h: map<K, nat>, keys: seq<K>, k: K, v: nat)
    requires forall x :: x in keys ==> x in h
    requires k !in keys
    ensures SumOver(h[k := v], keys) == SumOver(h, keys)
  {
    if |keys| > 0 {
      SumOverUnlisted(h, keys[..|keys| - 1], k, v);
    }
  }

  /** Raising the count of a key listed once raises the sum by one. */
  lemma {:induction false} SumOverBump<K(!new)>(h: map<K, nat>, keys: seq<K>, k: K)
    requires forall x :: x in keys ==> x in h
    requires forall i, j :: 0 <= i < j < |keys| ==> keys[i] != keys[j]
    requires k in keys
    ensures SumOver(h[k := h[k] + 1], keys) == SumOver(h, keys) + 1
  {
    var pre := keys[..|keys| - 1];
    var last := keys[|keys| - 1];
    if last == k {
      assert k !in pre;
      SumOverUnlisted(h, pre, k, h[k] + 1);
    } else {
      assert k in pre;
      SumOverBump(h, pre, k);
    }
  }

  /** One more counted key adds one to the total. */
  lemma CountOneMore<K(!new)>(h: map<K, nat>, r: seq<K>, k: K)
    requires forall x :: x in r ==> x in h
    requires forall x :: x in h ==> x in r
    requires forall i, j :: 0 <= i < j < |r| ==> r[i] != r[j]
    ensures forall x :: x in Listed(r, k) ==> x in Bump(h, k)
    ensures SumOver(Bump(h, k), Listed(r, k)) == SumOver(h, r) + 1
  {
    if k in r {
      assert Bump(h, k) == h[k := h[k] + 1];
      SumOverBump(h, r, k);
    } else {
      CountNewKey(h, r, k);
    }
  }

  /** A key seen for the first time is listed last with a count of one. */
  lemma CountNewKey<K(!new)>(h: map<K, nat>, r: seq<K>, k: K)
    requires forall x :: x in r ==> x in h
    requires k !in h
    ensures forall x :: x in r + [k] ==> x in Bump(h, k)
    ensures SumOver(Bump(h, k), r + [k]) == SumOver(h, r) + 1
  {
    var h', r' := h[k := 1], r + [k];
    assert Bump(h, k) == h';
    SumOverUnlisted(h, r, k, 1);
    assert r'[..|r|] == r;
  }

  /** The counts add up to the number of keys counted. */
  lemma {:induction false} HistogramTotal<K(!new)>(ks: seq<K>)
    ensures SumOver(Histogram(ks), KeysInOrder(ks)) == |ks|
  {
    if |ks| > 0 {
      var pre, k := ks[..|ks| - 1], ks[|ks| - 1];
      var h, r := Histogram(pre), KeysInOrder(pre);
      HistogramTotal(pre);
      CountOneMore(h, r, k);
    }
  }
}

=== FILE: mutations.dfy ===
/** The list logic of the store's mutations: the newest-first order, the
    optimistic insert with its rollback and unlock diff, the optimistic
    removal with its re-insertion, the in-place update and the initial load.
    Persistence is a parameter: whether the storage call succeeded. */
module Mutations {
  import opened Entries
  import opened Histograms
  import opened Statistics
  import opened Achievements
  import opened Sequences

  // ---------------------------------------------------------------------
  // Newest-first order
  // ---------------------------------------------------------------------

  /** Where a stable newest-first sort puts `e` when it comes after `xs`:
      scanning back from the end, past every entry strictly older than `e`. */
  function InsertIndex(xs: seq<LogEntry>, e: LogEntry): (k: nat)
    ensures k <= |xs|
    ensures forall i :: k <= i < |xs| ==> xs[i].at.timestamp < e.at.timestamp
    ensures k > 0 ==> xs[k - 1].at.timestamp >= e.at.timestamp
  {
    if |xs| == 0 then 0
    else if xs[|xs| - 1].at.timestamp >= e.at.timestamp then |xs|
    else InsertIndex(xs[..|xs| - 1], e)
  }

  /** `e` placed into `xs` at its insertion index. */
  function InsertNewestFirst(xs: seq<LogEntry>, e: LogEntry): (r: seq<LogEntry>)
    ensures |r| == |xs| + 1
    ensures multiset(r) == multiset(xs) + multiset{e}
  {
    var k := InsertIndex(xs, e);
    assert xs == xs[..k] + xs[k..];
    xs[..k] + [e] + xs[k..]
  }

  /** Two newest-first lists join into a newest-first list when the last
      of the first is no older than the first of the second. */
  lemma ConcatNewestFirst(a: seq<LogEntry>, b: seq<LogEntry>)
    requires NewestFirst(a) && NewestFirst(b)
    requires |a| > 0 && |b| > 0 ==> a[|a| - 1].at.timestamp >= b[0].at.timestamp
    ensures NewestFirst(a + b)
  {
    forall i, j | 0 <= i < j < |a + b|
      ensures (a + b)[i].at.timestamp >= (a + b)[j].at.timestamp
    {
      if j < |a| {
        assert (a + b)[i] == a[i] && (a + b)[j] == a[j];
      } else if i < |a| {
        assert (a + b)[i] == a[i] && (a + b)[j] == b[j - |a|];
        assert a[i].at.timestamp >= a[|a| - 1].at.timestamp;
        assert b[0].at.timestamp >= b[j - |a|].at.timestamp;
      } else {
        assert (a + b)[i] == b[i - |a|] && (a + b)[j] == b[j - |a|];
      }
    }
  }

  /** A suffix of a newest-first list is newest first. */
  lemma SuffixNewestFirst(xs: seq<LogEntry>, k: nat)
    requires k <= |xs|
    requires NewestFirst(xs)
    ensures NewestFirst(xs[k..])
  {
    var back := xs[k..];
    forall i, j | 0 <= i < j < |back|
      ensures back[i].at.timestamp >= back[j].at.timestamp
    {
      assert back[i] == xs[k + i] && back[j] == xs[k + j];
    }
  }

  /** Inserting into a newest-first list keeps it newest first. */
  lemma InsertKeepsOrder(xs: seq<LogEntry>, e: LogEntry)
    requires NewestFirst(xs)
    ensures NewestFirst(InsertNewestFirst(xs, e))
  {
    var k := InsertIndex(xs, e);
    var front, back := xs[..k], xs[k..];
    PrefixNewestFirst(xs, k);
    SuffixNewestFirst(xs, k);
    ConcatNewestFirst(front, [e]);
    assert |back| > 0 ==> back[0] == xs[k];
    ConcatNewestFirst(front + [e], back);
  }

  /** `logs.sort((a, b) => b.timestamp - a.timestamp)`: the sort is stable,
      so its result is the one insertion sort produces. */
  function SortNewestFirst(xs: seq<LogEntry>): (r: seq<LogEntry>)
    ensures NewestFirst(r)
    ensures multiset(r) == multiset(xs)
    ensures |r| == |xs|
  {
    if |xs| == 0 then []
    else
      assert xs == xs[..|xs| - 1] + [xs[|xs| - 1]];
      InsertKeepsOrder(SortNewestFirst(xs[..|xs| - 1]), xs[|xs| - 1]);
      InsertNewestFirst(SortNewestFirst(xs[..|xs| - 1]), xs[|xs| - 1])
  }

  /** Inserting an entry no newer than the last one of a list appends it. */
  lemma InsertAfterOlder(xs: seq<LogEntry>, e: LogEntry)
    requires |xs| > 0 ==> xs[|xs| - 1].at.timestamp >= e.at.timestamp
    ensures InsertNewestFirst(xs, e) == xs + [e]
  {
    assert xs[..|xs|] == xs;
  }

  /** Sorting a list already newest first leaves it as it is: equal
      timestamps keep their order. */
  lemma {:induction false} SortKeepsSorted(xs: seq<LogEntry>)
    requires NewestFirst(xs)
    ensures SortNewestFirst(xs) == xs
  {
    if |xs| > 0 {
      var pre, last := xs[..|xs| - 1], xs[|xs| - 1];
      assert SortNewestFirst(pre) == pre by {
        PrefixNewestFirst(xs, |xs| - 1);
        SortKeepsSorted(pre);
      }
      assert InsertNewestFirst(pre, last) == pre + [last] by {
        InsertAfterOlder(pre, last);
      }
      assert pre + [last] == xs;
    }
  }

  /** A prefix of a newest-first list is newest first. */
  lemma PrefixNewestFirst(xs: seq<LogEntry>, n: nat)
    requires n <= |xs|
    requires NewestFirst(xs)
    ensures NewestFirst(xs[..n])
  {
    forall i, j | 0 <= i < j < n
      ensures xs[..n][i].at.timestamp >= xs[..n][j].at.timestamp
    {
      assert xs[..n][i] == xs[i] && xs[..n][j] == xs[j];
    }
  }

  /** Pushing an entry onto a sorted list and sorting is inserting it. */
  lemma PushSortIsInsertion(logs: seq<LogEntry>, e: LogEntry)
    requires NewestFirst(logs)
    ensures SortNewestFirst(logs + [e]) == InsertNewestFirst(logs, e)
  {
    assert (logs + [e])[..|logs|] == logs;
    SortKeepsSorted(logs);
  }

  /** Pushing an entry and sorting inserts it into the sorted list. */
  lemma PushSortInsertsIntoSorted(logs: seq<LogEntry>, e: LogEntry)
    ensures SortNewestFirst(logs + [e]) == InsertNewestFirst(SortNewestFirst(logs), e)
  {
    assert (logs + [e])[..|logs|] == logs;
  }

  // ---------------------------------------------------------------------
  // Filtering by id
  // ---------------------------------------------------------------------

  /** `logs.filter(l => l.id !== id)`; `WithoutIdMembers` and `WithoutIdIsFilter`
      state what it keeps. */
  function WithoutId(xs: seq<LogEntry>, id: string): (r: seq<LogEntry>)
    ensures |r| <= |xs|
  {
    if |xs| == 0 then []
    else
      var rest := WithoutId(xs[..|xs| - 1], id);
      var e := xs[|xs| - 1];
      if e.id == id then rest else rest + [e]
  }

  /** The filter keeps exactly the entries with another id. */
  lemma {:induction false} WithoutIdMembers(xs: seq<LogEntry>, id: string)
    ensures id !in Ids(WithoutId(xs, id))
    ensures forall e :: e in WithoutId(xs, id) <==> e in xs && e.id != id
  {
    if |xs| > 0 {
      var pre := xs[..|xs| - 1];
      var e := xs[|xs| - 1];
      WithoutIdMembers(pre, id);
      assert forall x :: x in xs <==> x in pre || x == e by {
        assert xs == pre + [e];
      }
    }
  }

  /** The filter keeps each entry with another id as often as the list
      holds it, drops every entry with the id, and keeps the list order. */
  lemma {:induction false} WithoutIdIsFilter(xs: seq<LogEntry>, id: string)
    ensures forall e :: Occurrences(WithoutId(xs, id), e) == if e.id == id then 0 else Occurrences(xs, e)
    ensures SubsequenceOf(WithoutId(xs, id), xs)
  {
    WithoutIdCounts(xs, id);
    WithoutIdInOrder(xs, id);
  }

  lemma {:induction false} WithoutIdCounts(xs: seq<LogEntry>, id: string)
    ensures forall e :: Occurrences(WithoutId(xs, id), e) == if e.id == id then 0 else Occurrences(xs, e)
  {
    if |xs| > 0 {
      var pre, e := xs[..|xs| - 1], xs[|xs| - 1];
      var kept := WithoutId(pre, id);
      WithoutIdCounts(pre, id);
      if e.id != id {
        assert WithoutId(xs, id) == kept + [e];
        assert (kept + [e])[..|kept|] == kept;
      } else {
        assert WithoutId(xs, id) == kept;
      }
    }
  }

  lemma {:induction false} WithoutIdInOrder(xs: seq<LogEntry>, id: string)
    ensures SubsequenceOf(WithoutId(xs, id), xs)
  {
    if |xs| > 0 {
      var pre, e := xs[..|xs| - 1], xs[|xs| - 1];
      var kept := WithoutId(pre, id);
      WithoutIdInOrder(pre, id);
      assert xs == pre + [e];
      if e.id != id {
        assert WithoutId(xs, id) == kept + [e];
        SubsequenceExtend(kept, pre, e);
      } else {
        assert WithoutId(xs, id) == kept;
        SubsequenceSkip(kept, pre, e);
      }
    }
  }

  lemma {:induction false} WithoutIdAppend(a: seq<LogEntry>, b: seq<LogEntry>, id: string)
    ensures WithoutId(a + b, id) == WithoutId(a, id) + WithoutId(b, id)
  {
    if |b| > 0 {
      var b' := b[..|b| - 1];
      assert (a + b)[..|a + b| - 1] == a + b';
      WithoutIdAppend(a, b', id);
    } else {
      assert a + b == a;
    }
  }

  /** Filtering out an id nobody carries changes nothing. */
  lemma {:induction false} WithoutAbsentId(xs: seq<LogEntry>, id: string)
    requires id !in Ids(xs)
    ensures WithoutId(xs, id) == xs
  {
    if |xs| > 0 {
      var pre := xs[..|xs| - 1];
      assert xs[|xs| - 1] in xs;
      assert forall x :: x in pre ==> x in xs;
      WithoutAbsentId(pre, id);
      assert pre + [xs[|xs| - 1]] == xs;
    }
  }

  // ---------------------------------------------------------------------
  // addQuickLog
  // ---------------------------------------------------------------------

  /** The tag every quick log carries. */
  const DefaultTag: string := "Make Love"

  /** The entry `addQuickLog` creates for the moment `at`. The clock is
      read twice, once for each stamp, so the two may differ. */
  function NewQuickLog(id: string, at: Instant, created: int, updated: int): (e: LogEntry)
    ensures e.id == id && e.at == at
    ensures e.tags == [DefaultTag] && e.duration == None && e.note == None
    ensures e.createdAt == created && e.updatedAt == updated
  {
    LogEntry(id, at, None, [DefaultTag], None, created, updated)
  }

  /** The outcome of `addQuickLog`: the list afterwards and, on success, the
      created entry with the ids of the badges to announce; on failure the
      error is passed on to the caller. */
  datatype AddOutcome =
    | Added(logs: seq<LogEntry>, entry: LogEntry, notices: seq<BadgeId>)
    | AddFailed(logs: seq<LogEntry>)

  /** `addQuickLog`: push the new entry and sort; when the storage call
      `persisted` succeeds, announce the badges unlocked by the change;
      otherwise remove the new id again. */
  function AddQuickLog(logs: seq<LogEntry>, id: string, at: Instant, created: int, updated: int, persisted: bool): (r: AddOutcome)
    ensures NewestFirst(r.logs)
    ensures r.Added? <==> persisted
    ensures r.Added? ==> r.entry == NewQuickLog(id, at, created, updated)
    ensures r.Added? ==> multiset(r.logs) == multiset(logs) + multiset{r.entry}
    ensures r.Added? ==> forall b :: b in r.notices <==> Unlocked(r.logs, b) && !Unlocked(logs, b)
    ensures r.AddFailed? ==> id !in Ids(r.logs)
  {
    var entry := NewQuickLog(id, at, created, updated);
    var pushed := SortNewestFirst(logs + [entry]);
    if persisted then
      Added(pushed, entry, UnlockDiff(logs, pushed))
    else
      var rolledBack := WithoutId(pushed, id);
      assert NewestFirst(rolledBack) by {
        RollbackGivesSorted(logs, entry);
      }
      assert id !in Ids(rolledBack) by {
        WithoutIdMembers(pushed, id);
      }
      AddFailed(rolledBack)
  }

  /** Removing the new entry by id from the pushed and sorted list gives
      the sorted previous list, filtered the same way. */
  lemma RollbackGivesSorted(logs: seq<LogEntry>, e: LogEntry)
    ensures WithoutId(SortNewestFirst(logs + [e]), e.id) == WithoutId(SortNewestFirst(logs), e.id)
    ensures NewestFirst(WithoutId(SortNewestFirst(logs + [e]), e.id))
  {
    var s := SortNewestFirst(logs);
    PushSortInsertsIntoSorted(logs, e);
    WithoutInserted(s, e);
    WithoutIdKeepsOrder(s, e.id);
  }

  /** Filtering out the id of an inserted entry filters the list it went into. */
  lemma WithoutInserted(s: seq<LogEntry>, e: LogEntry)
    ensures WithoutId(InsertNewestFirst(s, e), e.id) == WithoutId(s, e.id)
  {
    var k := InsertIndex(s, e);
    var a, b := s[..k], s[k..];
    var kept := WithoutId(a, e.id) + WithoutId(b, e.id);
    assert WithoutId(a + [e] + b, e.id) == kept by {
      WithoutIdAppend(a + [e], b, e.id);
      WithoutIdAppend(a, [e], e.id);
      assert WithoutId([e], e.id) == [] by {
        assert [e][..0] == [];
      }
    }
    assert WithoutId(s, e.id) == kept by {
      assert s == a + b;
      WithoutIdAppend(a, b, e.id);
    }
    assert InsertNewestFirst(s, e) == a + [e] + b;
  }

  /** Filtering keeps a newest-first list newest first. */
  lemma {:induction false} WithoutIdKeepsOrder(xs: seq<LogEntry>, id: string)
    requires NewestFirst(xs)
    ensures NewestFirst(WithoutId(xs, id))
  {
    if |xs| > 0 {
      var pre := xs[..|xs| - 1];
      var e := xs[|xs| - 1];
      WithoutIdKeepsOrder(pre, id);
      var rest := WithoutId(pre, id);
      WithoutIdMembers(pre, id);
      forall x | x in rest
        ensures x.at.timestamp >= e.at.timestamp
      {
        var i :| 0 <= i < |pre| && pre[i] == x;
        assert xs[i] == x;
      }
    }
  }

  /** Two lists with the same entries carry the same ids. */
  lemma SameEntriesSameIds(a: seq<LogEntry>, b: seq<LogEntry>)
    requires multiset(a) == multiset(b)
    ensures Ids(a) == Ids(b)
  {
    forall x
      ensures x in a <==> x in b
    {
      assert x in a <==> x in multiset(a);
      assert x in b <==> x in multiset(b);
    }
  }

  /** A failed add with a fresh id gives back the previous entries, sorted,
      so the id set is restored. */
  lemma RollbackRestoresIds(logs: seq<LogEntry>, id: string, at: Instant, created: int, updated: int)
    requires id !in Ids(logs)
    ensures AddQuickLog(logs, id, at, created, updated, false).logs == SortNewestFirst(logs)
    ensures Ids(AddQuickLog(logs, id, at, created, updated, false).logs) == Ids(logs)
  {
    var e := NewQuickLog(id, at, created, updated);
    var s := SortNewestFirst(logs);
    assert Ids(s) == Ids(logs) by {
      SameEntriesSameIds(s, logs);
    }
    assert WithoutId(s, id) == s by {
      WithoutAbsentId(s, id);
    }
    RollbackGivesSorted(logs, e);
  }

  /** A failed add with a fresh id on a sorted list restores it exactly. */
  lemma RollbackRestoresList(logs: seq<LogEntry>, id: string, at: Instant, created: int, updated: int)
    requires NewestFirst(logs)
    requires id !in Ids(logs)
    ensures AddQuickLog(logs, id, at, created, updated, false).logs == logs
  {
    RollbackRestoresIds(logs, id, at, created, updated);
    SortKeepsSorted(logs);
  }

  /** A successful add on a sorted list inserts the new entry in place. */
  lemma AddedIsInsertion(logs: seq<LogEntry>, id: string, at: Instant, created: int, updated: int)
    requires NewestFirst(logs)
    ensures AddQuickLog(logs, id, at, created, updated, true).logs == InsertNewestFirst(logs, NewQuickLog(id, at, created, updated))
  {
    PushSortIsInsertion(logs, NewQuickLog(id, at, created, updated));
  }

  /** The tenth entry announces `getting_started` and nothing about
      `first_step`, which was unlocked already. */
  lemma TenthEntryNotices(logs: seq<LogEntry>, id: string, at: Instant, created: int, updated: int)
    requires |logs| == 9
    ensures GettingStarted in AddQuickLog(logs, id, at, created, updated, true).notices
    ensures FirstStep !in AddQuickLog(logs, id, at, created, updated, true).notices
  {
    var r := AddQuickLog(logs, id, at, created, updated, true);
    assert |r.logs| == 10 by {
      assert |multiset(r.logs)| == |multiset(logs)| + 1;
    }
    CountBadges(logs);
    CountBadges(r.logs);
  }

  /** An add never takes a milestone badge away: the count only grows. */
  lemma AddKeepsMilestones(logs: seq<LogEntry>, id: string, at: Instant, created: int, updated: int)
    ensures var r := AddQuickLog(logs, id, at, created, updated, true);
      && (Unlocked(logs, FirstStep) ==> Unlocked(r.logs, FirstStep))
      && (Unlocked(logs, GettingStarted) ==> Unlocked(r.logs, GettingStarted))
      && (Unlocked(logs, Enthusiast) ==> Unlocked(r.logs, Enthusiast))
      && (Unlocked(logs, Centurion) ==> Unlocked(r.logs, Centurion))
      && (Unlocked(logs, Legend) ==> Unlocked(r.logs, Legend))
  {
    var r := AddQuickLog(logs, id, at, created, updated, true);
    assert |r.logs| == |logs| + 1 by {
      assert |multiset(r.logs)| == |multiset(logs)| + 1;
    }
    CountBadges(logs);
    CountBadges(r.logs);
  }

  /** Inserting an entry adds its tags to the tag counts. */
  lemma TagCountInsert(xs: seq<LogEntry>, e: LogEntry, t: string)
    ensures TagCount(InsertNewestFirst(xs, e), t) == TagCount(xs, t) + Occurrences(e.tags, t)
  {
    var k := InsertIndex(xs, e);
    var a, b := xs[..k], xs[k..];
    assert TagCount(a + [e] + b, t) == TagCount(a, t) + Occurrences(e.tags, t) + TagCount(b, t) by {
      TagCountAppend(a + [e], b, t);
      TagCountAppend(a, [e], t);
      assert [e][..0] == [];
    }
    assert TagCount(xs, t) == TagCount(a, t) + TagCount(b, t) by {
      assert xs == a + b;
      TagCountAppend(a, b, t);
    }
    assert InsertNewestFirst(xs, e) == a + [e] + b;
  }

  /** Sorting does not change the tag counts. */
  lemma {:induction false} TagCountSort(xs: seq<LogEntry>, t: string)
    ensures TagCount(SortNewestFirst(xs), t) == TagCount(xs, t)
  {
    if |xs| > 0 {
      var pre, last := xs[..|xs| - 1], xs[|xs| - 1];
      TagCountSort(pre, t);
      TagCountInsert(SortNewestFirst(pre), last, t);
    }
  }

  /** Pushing an entry and sorting adds the entry's tags to the tag counts. */
  lemma PushCountsTags(logs: seq<LogEntry>, e: LogEntry)
    ensures forall t :: CountOf(TagStats(SortNewestFirst(logs + [e])), t) == CountOf(TagStats(logs), t) + Occurrences(e.tags, t)
  {
    var pushed := SortNewestFirst(logs + [e]);
    forall t
      ensures CountOf(TagStats(pushed), t) == CountOf(TagStats(logs), t) + Occurrences(e.tags, t)
    {
      assert TagCount(pushed, t) == TagCount(logs, t) + Occurrences(e.tags, t) by {
        TagCountSort(logs + [e], t);
        TagCountAppend(logs, [e], t);
        assert [e][..0] == [];
      }
      TagStatsCount(pushed, t);
      TagStatsCount(logs, t);
    }
  }

  /** A successful add raises the count of the default tag by one and leaves
      the count of every other tag as it was. */
  lemma AddCountsDefaultTag(logs: seq<LogEntry>, id: string, at: Instant, created: int, updated: int)
    ensures var r := AddQuickLog(logs, id, at, created, updated, true);
      CountOf(TagStats(r.logs), DefaultTag) == CountOf(TagStats(logs), DefaultTag) + 1
    ensures var r := AddQuickLog(logs, id, at, created, updated, true);
      forall t :: t != DefaultTag ==> CountOf(TagStats(r.logs), t) == CountOf(TagStats(logs), t)
  {
    var e := NewQuickLog(id, at, created, updated);
    assert AddQuickLog(logs, id, at, created, updated, true).logs == SortNewestFirst(logs + [e]);
    PushCountsDefaultTag(logs, e);
  }

  /** Pushing an entry tagged only with the default tag and sorting counts that tag once more. */
  lemma PushCountsDefaultTag(logs: seq<LogEntry>, e: LogEntry)
    requires e.tags == [DefaultTag]
    ensures CountOf(TagStats(SortNewestFirst(logs + [e])), DefaultTag) == CountOf(TagStats(logs), DefaultTag) + 1
    ensures forall t :: t != DefaultTag ==> CountOf(TagStats(SortNewestFirst(logs + [e])), t) == CountOf(TagStats(logs), t)
  {
    assert forall t :: Occurrences(e.tags, t) == if t == DefaultTag then 1 else 0 by {
      assert e.tags[..0] == [];
    }
    PushCountsTags(logs, e);
  }

  // ---------------------------------------------------------------------
  // removeLog, updateEntry, loadLogs
  // ---------------------------------------------------------------------

  /** `findIndex(l => l.id === id)`: the first position carrying `id`. */
  function IndexOf(xs: seq<LogEntry>, id: string): (r: Option<nat>)
    ensures r.None? <==> id !in Ids(xs)
    ensures r.Some? ==> r.value < |xs| && xs[r.value].id == id
    ensures r.Some? ==> forall j :: 0 <= j < r.value ==> xs[j].id != id
  {
    if |xs| == 0 then None
    else if xs[0].id == id then Some(0)
    else
      var r := IndexOf(xs[1..], id);
      assert forall x :: x in xs <==> x == xs[0] || x in xs[1..] by {
        assert xs == [xs[0]] + xs[1..];
      }
      if r.None? then None else Some(r.value + 1)
  }

  /** `removeLog`: take the first entry with `id` out; when the storage call
      fails, put it back at the same index. The failure is logged, not
      passed on, so only the list comes back. */
  function RemoveLog(logs: seq<LogEntry>, id: string, persisted: bool): (r: seq<LogEntry>)
    ensures id !in Ids(logs) ==> r == logs
    ensures !persisted ==> r == logs
    ensures persisted && id in Ids(logs) ==>
      |r| == |logs| - 1 &&
      exists i :: 0 <= i < |logs| && FirstWithId(logs, id, i) && r == logs[..i] + logs[i + 1..]
  {
    match IndexOf(logs, id)
    case None => logs
    case Some(i) =>
      var removed := logs[..i] + logs[i + 1..];
      if persisted then removed
      else
        assert removed[..i] == logs[..i] && removed[i..] == logs[i + 1..];
        assert logs == logs[..i] + [logs[i]] + logs[i + 1..];
        removed[..i] + [logs[i]] + removed[i..]
  }

  /** A removal keeps a newest-first list newest first. */
  lemma RemoveKeepsOrder(logs: seq<LogEntry>, id: string, persisted: bool)
    requires NewestFirst(logs)
    ensures NewestFirst(RemoveLog(logs, id, persisted))
  {
    var r := RemoveLog(logs, id, persisted);
    if persisted && id in Ids(logs) {
      var i :| 0 <= i < |logs| && logs[i].id == id && r == logs[..i] + logs[i + 1..];
      PrefixNewestFirst(logs, i);
      SuffixNewestFirst(logs, i + 1);
      assert |logs[..i]| > 0 && |logs[i + 1..]| > 0 ==> logs[..i][i - 1] == logs[i - 1] && logs[i + 1..][0] == logs[i + 1];
      ConcatNewestFirst(logs[..i], logs[i + 1..]);
    }
  }

  /** With unique ids, a successful removal leaves no entry with the id. */
  lemma RemoveDropsId(logs: seq<LogEntry>, id: string)
    requires forall i, j :: 0 <= i < j < |logs| ==> logs[i].id != logs[j].id
    ensures id !in Ids(RemoveLog(logs, id, true))
  {
  }

  /** Position i holds the first entry with the id. */
  predicate FirstWithId(logs: seq<LogEntry>, id: string, i: nat)
    requires i < |logs|
  {
    logs[i].id == id && forall j :: 0 <= j < i ==> logs[j].id != id
  }

  /** The in-memory half of `updateEntry`: replace the first entry with the
      same id in place; the list is not sorted again. */
  function ReplaceFirst(logs: seq<LogEntry>, entry: LogEntry): (r: seq<LogEntry>)
    ensures |r| == |logs|
    ensures entry.id !in Ids(logs) ==> r == logs
    ensures Ids(r) == Ids(logs)
    ensures entry.id in Ids(logs) ==> exists i :: 0 <= i < |logs| && r == logs[i := entry] && FirstWithId(logs, entry.id, i)
  {
    match IndexOf(logs, entry.id)
    case None => logs
    case Some(i) =>
      var r := logs[i := entry];
      assert FirstWithId(logs, entry.id, i);
      assert Ids(r) == Ids(logs) by {
        forall x | x in Ids(logs)
          ensures x in Ids(r)
        {
          var e :| e in logs && e.id == x;
          var j :| 0 <= j < |logs| && logs[j] == e;
          if j == i {
            assert r[i].id == x;
          } else {
            assert r[j] == e;
          }
        }
        forall x | x in Ids(r)
          ensures x in Ids(logs)
        {
          var e :| e in r && e.id == x;
          var j :| 0 <= j < |r| && r[j] == e;
          if j == i {
            assert logs[i].id == x;
          } else {
            assert logs[j] == e;
          }
        }
      }
      r
  }

  /** The outcome of `updateEntry`: the list afterwards, and whether the
      storage error was passed on to the caller. */
  datatype UpdateOutcome = UpdateOutcome(logs: seq<LogEntry>, raised: bool)

  /** `updateEntry`: the list is changed first, then the entry is written.
      A failed write is passed on and nothing is rolled back, so the list
      does not depend on whether the write `persisted`. */
  function UpdateEntry(logs: seq<LogEntry>, entry: LogEntry, persisted: bool): (r: UpdateOutcome)
    ensures r.raised <==> !persisted
    ensures |r.logs| == |logs| && Ids(r.logs) == Ids(logs)
    ensures entry.id !in Ids(logs) ==> r.logs == logs
    ensures entry.id in Ids(logs) ==> exists i :: 0 <= i < |logs| && r.logs == logs[i := entry] && FirstWithId(logs, entry.id, i)
  {
    UpdateOutcome(ReplaceFirst(logs, entry), !persisted)
  }

  /** Unlike a failed removal, a failed update does not restore the list:
      when an entry with the id is replaced by a different one, the list
      differs from the old one even though the write failed. */
  lemma UpdateFailureKeepsChange(logs: seq<LogEntry>, entry: LogEntry)
    requires entry.id in Ids(logs) && entry !in logs
    ensures UpdateEntry(logs, entry, false).logs != logs
    ensures UpdateEntry(logs, entry, false).logs == UpdateEntry(logs, entry, true).logs
    ensures RemoveLog(logs, entry.id, false) == logs
  {
    var r := UpdateEntry(logs, entry, false).logs;
    var i :| 0 <= i < |logs| && r == logs[i := entry] && FirstWithId(logs, entry.id, i);
    assert r[i] == entry;
  }

  /** An update that keeps the timestamp keeps the order, whatever the
      write's outcome. */
  lemma UpdateKeepsOrder(logs: seq<LogEntry>, entry: LogEntry, persisted: bool)
    requires NewestFirst(logs)
    requires forall i :: 0 <= i < |logs| && logs[i].id == entry.id ==> logs[i].at.timestamp == entry.at.timestamp
    ensures NewestFirst(UpdateEntry(logs, entry, persisted).logs)
  {
  }

  /** `loadLogs`: the fetched entries sorted newest first, or the previous
      list when the fetch fails. */
  function LoadLogs(previous: seq<LogEntry>, fetched: Option<seq<LogEntry>>): (r: seq<LogEntry>)
    ensures fetched.None? ==> r == previous
    ensures fetched.Some? ==> NewestFirst(r) && multiset(r) == multiset(fetched.value)
  {
    match fetched
    case None => previous
    case Some(all) => SortNewestFirst(all)
  }
}

=== FILE: sequences.dfy ===
/** Order-keeping selection from a sequence: what `filter` returns. */
module Sequences {

  /** `a` is `b` with some elements left out, the rest in the same order. */
  predicate SubsequenceOf<T(==)>(a: seq<T>, b: seq<T>)
    decreases |b|
  {
    if |a| == 0 then true
    else if |b| == 0 then false
    else if a[|a| - 1] == b[|b| - 1] then SubsequenceOf(a[..|a| - 1], b[..|b| - 1])
    else SubsequenceOf(a, b[..|b| - 1])
  }

  /** A subsequence of `b` is one of `b + [y]`. */
  lemma {:induction false} SubsequenceSkip<T>(a: seq<T>, b: seq<T>, y: T)
    requires SubsequenceOf(a, b)
    ensures SubsequenceOf(a, b + [y])
    decreases |b|, 1
  {
    assert (b + [y])[..|b|] == b;
    if |a| > 0 && a[|a| - 1] == y {
      SubsequenceDropLast(a, b);
    }
  }

  /** Dropping the last element of a subsequence keeps it a subsequence. */
  lemma {:induction false} SubsequenceDropLast<T>(a: seq<T>, b: seq<T>)
    requires |a| > 0
    requires SubsequenceOf(a, b)
    ensures SubsequenceOf(a[..|a| - 1], b)
    decreases |b|, 0
  {
    var a', b' := a[..|a| - 1], b[..|b| - 1];
    if a[|a| - 1] == b[|b| - 1] {
      SubsequenceSkip(a', b', b[|b| - 1]);
    } else {
      SubsequenceDropLast(a, b');
      SubsequenceSkip(a', b', b[|b| - 1]);
    }
    assert b' + [b[|b| - 1]] == b;
  }

  /** Keeping the last element of both sides keeps a subsequence. */
  lemma SubsequenceExtend<T>(a: seq<T>, b: seq<T>, y: T)
    requires SubsequenceOf(a, b)
    ensures SubsequenceOf(a + [y], b + [y])
  {
    assert (a + [y])[..|a|] == a;
    assert (b + [y])[..|b|] == b;
  }
}

=== FILE: settings.dfy ===
/** The user settings and the list of custom tags: `addTag` appends a tag
    that is new and not empty, `removeTag` drops every copy of a tag. */
module Settings {
  import opened Histograms
  import opened Sequences

  datatype Theme = System | Light | Dark

  datatype Security = Security(pinEnabled: bool, pinHash: string)

  datatype AppSettings = AppSettings(theme: Theme, security: Security, customTags: seq<string>)

  /** The settings before anything is stored. */
  const DefaultSettings: AppSettings := AppSettings(System, Security(false, ""), [])

  /** No tag appears twice. */
  predicate Distinct(tags: seq<string>) {
    forall i, j :: 0 <= i < j < |tags| ==> tags[i] != tags[j]
  }

  /** `addTag`: an empty tag is ignored; a tag already listed is not added again. */
  function AddTag(s: AppSettings, t: string): (r: AppSettings)
    ensures r.theme == s.theme && r.security == s.security
    ensures t == "" ==> r == s
    ensures t != "" ==> t in r.customTags
    ensures t in s.customTags ==> r == s
    ensures s.customTags <= r.customTags && |r.customTags| <= |s.customTags| + 1
    ensures forall x :: x in r.customTags <==> x in s.customTags || (x == t && t != "")
    ensures Distinct(s.customTags) ==> Distinct(r.customTags)
  {
    if t == "" then s
    else if t in s.customTags then s
    else s.(customTags := s.customTags + [t])
  }

  /** `removeTag`: every copy of the tag goes, the rest keeps its order. */
  function RemoveTag(s: AppSettings, t: string): (r: AppSettings)
    ensures r.theme == s.theme && r.security == s.security
    ensures t !in r.customTags
    ensures forall x :: x != t ==> Occurrences(r.customTags, x) == Occurrences(s.customTags, x)
    ensures SubsequenceOf(r.customTags, s.customTags)
  {
    WithoutKeepsOthers(s.customTags, t);
    s.(customTags := Without(s.customTags, t))
  }

  /** `tags.filter(x => x !== t)`. */
  function Without(tags: seq<string>, t: string): (r: seq<string>)
    ensures t !in r
    ensures |r| <= |tags|
  {
    if |tags| == 0 then []
    else
      var rest := Without(tags[..|tags| - 1], t);
      if tags[|tags| - 1] == t then rest else rest + [tags[|tags| - 1]]
  }

  /** The filter keeps every other tag as often as it occurred, in order. */
  lemma {:induction false} WithoutKeepsOthers(tags: seq<string>, t: string)
    ensures forall x :: x != t ==> Occurrences(Without(tags, t), x) == Occurrences(tags, x)
    ensures SubsequenceOf(Without(tags, t), tags)
  {
    WithoutKeepsCounts(tags, t);
    WithoutIsSubsequence(tags, t);
  }

  lemma {:induction false} WithoutKeepsCounts(tags: seq<string>, t: string)
    ensures forall x :: x != t ==> Occurrences(Without(tags, t), x) == Occurrences(tags, x)
  {
    if |tags| > 0 {
      var pre, last := tags[..|tags| - 1], tags[|tags| - 1];
      WithoutKeepsCounts(pre, t);
      var rest := Without(pre, t);
      if last != t {
        assert (rest + [last])[..|rest|] == rest;
      }
    }
  }

  lemma {:induction false} WithoutIsSubsequence(tags: seq<string>, t: string)
    ensures SubsequenceOf(Without(tags, t), tags)
  {
    if |tags| > 0 {
      var pre, last := tags[..|tags| - 1], tags[|tags| - 1];
      WithoutIsSubsequence(pre, t);
      var rest := Without(pre, t);
      assert pre + [last] == tags;
      if last == t {
        SubsequenceSkip(rest, pre, last);
      } else {
        SubsequenceExtend(rest, pre, last);
      }
    }
  }

  /** Adding a tag twice is adding it once. */
  lemma AddTagIdempotent(s: AppSettings, t: string)
    ensures AddTag(AddTag(s, t), t) == AddTag(s, t)
  {
  }

  /** Adding a tag that was not listed and removing it again restores the
      settings. */
  lemma {:induction false} RemoveUndoesAdd(s: AppSettings, t: string)
    requires t !in s.customTags
    ensures RemoveTag(AddTag(s, t), t) == s
  {
    WithoutAbsent(s.customTags, t);
    if t != "" {
      assert (s.customTags + [t])[..|s.customTags|] == s.customTags;
    }
  }

  /** Filtering out a tag that is not listed changes nothing. */
  lemma {:induction false} WithoutAbsent(tags: seq<string>, t: string)
    requires t !in tags
    ensures Without(tags, t) == tags
  {
    if |tags| > 0 {
      var pre := tags[..|tags| - 1];
      WithoutAbsent(pre, t);
      assert pre + [tags[|tags| - 1]] == tags;
    }
  }
}

=== FILE: statistics.dfy ===
/** The derived statistics of the log store: pure functions of the current
    list of entries (and of "today", which the caller supplies). */
module Statistics {
  import opened Entries
  import opened Histograms
  import opened Sequences

  function Max(a: int, b: int): int {
    if a >= b then a else b
  }

  // ---------------------------------------------------------------------
  // Unique days, newest first
  // ---------------------------------------------------------------------

  predicate StrictlyDescending(xs: seq<int>) {
    forall i, j :: 0 <= i < j < |xs| ==> xs[i] > xs[j]
  }

  /** Places `x` into a strictly descending list, unless it is already there. */
  function InsertDescending(x: int, ys: seq<int>): (r: seq<int>)
    requires StrictlyDescending(ys)
    ensures StrictlyDescending(r)
    ensures forall z :: z in r <==> z == x || z in ys
  {
    if |ys| == 0 then [x]
    else if x > ys[0] then [x] + ys
    else if x == ys[0] then ys
    else
      var tail := ys[1..];
      assert forall z :: z in tail ==> z < ys[0] by {
        forall z | z in tail
          ensures z < ys[0]
        {
          var j :| 0 <= j < |tail| && tail[j] == z;
          assert ys[j + 1] == z;
        }
      }
      var rest := InsertDescending(x, tail);
      assert ys == [ys[0]] + tail;
      ConsDescending(ys[0], rest);
      [ys[0]] + rest
  }

  /** A value above every element of a strictly descending list may lead it. */
  lemma ConsDescending(x: int, ys: seq<int>)
    requires StrictlyDescending(ys)
    requires forall z :: z in ys ==> z < x
    ensures StrictlyDescending([x] + ys)
  {
    var r := [x] + ys;
    forall i, j | 0 <= i < j < |r|
      ensures r[i] > r[j]
    {
      assert r[j] == ys[j - 1];
      if i > 0 {
        assert r[i] == ys[i - 1];
      } else {
        assert ys[j - 1] in ys;
      }
    }
  }

  /** The distinct values of a list, largest first: a set of the values
      turned into an array and sorted in descending order. */
  function DistinctDescending(xs: seq<int>): (r: seq<int>)
    ensures StrictlyDescending(r)
    ensures forall z :: z in r <==> z in xs
  {
    if |xs| == 0 then []
    else InsertDescending(xs[|xs| - 1], DistinctDescending(xs[..|xs| - 1]))
  }

  /** The day key of every entry, in list order. */
  function DaysOf(logs: seq<LogEntry>): seq<int> {
    seq(|logs|, i requires 0 <= i < |logs| => logs[i].at.day)
  }

  /** The set of days that carry at least one entry. */
  function DaySet(logs: seq<LogEntry>): set<int> {
    set i | 0 <= i < |logs| :: logs[i].at.day
  }

  /** `uniqueDates`: every entry's day exactly once, newest first. */
  function UniqueDates(logs: seq<LogEntry>): (r: seq<int>)
    ensures |r| == 0 <==> |logs| == 0
    ensures StrictlyDescending(r)
    ensures forall i :: 0 <= i < |logs| ==> logs[i].at.day in r
    ensures forall d :: d in r ==> exists i :: 0 <= i < |logs| && logs[i].at.day == d
  {
    var ds := DaysOf(logs);
    assert forall i :: 0 <= i < |logs| ==> ds[i] == logs[i].at.day;
    var r := DistinctDescending(ds);
    assert |logs| > 0 ==> ds[0] in r;
    r
  }

  /** A strictly descending list holds as many distinct values as it is long. */
  lemma {:induction false} DistinctCount(xs: seq<int>)
    requires StrictlyDescending(xs)
    ensures |set x | x in xs| == |xs|
  {
    if |xs| > 0 {
      var tail := xs[1..];
      DistinctCount(tail);
      assert (set x | x in xs) == {xs[0]} + (set x | x in tail);
      assert xs[0] !in tail;
    }
  }

  /** The unique-day list holds exactly the day set, one day per position. */
  lemma UniqueDatesSet(logs: seq<LogEntry>)
    ensures (set x | x in UniqueDates(logs)) == DaySet(logs)
    ensures |UniqueDates(logs)| == |DaySet(logs)|
  {
    var r := UniqueDates(logs);
    DistinctCount(r);
  }

  // ---------------------------------------------------------------------
  // Current streak
  // ---------------------------------------------------------------------

  /** Every day in the window `(lo, hi]` carries an entry. */
  predicate AllPresent(days: set<int>, lo: int, hi: int) {
    forall x :: lo < x <= hi ==> x in days
  }

  /** The unbroken run of present days counted back from `start` is `n` long. */
  predicate RunBackFrom(days: set<int>, start: int, n: nat) {
    AllPresent(days, start - n, start) && start - n !in days
  }

  /** Present days counted back from `d`, one day at a time, until a gap. */
  function StreakBack(days: set<int>, d: int): (n: nat)
    ensures n <= |days|
    ensures RunBackFrom(days, d, n)
    decreases |days|
  {
    if d in days then
      var n := StreakBack(days - {d}, d - 1);
      assert AllPresent(days, d - (n + 1), d) by {
        forall x | d - (n + 1) < x <= d
          ensures x in days
        {
          if x < d {
            assert x in days - {d};
          }
        }
      }
      1 + n
    else 0
  }

  /** `currentStreak`: the run of present days ending today, or ending
      yesterday when today has no entry; 0 when neither day has one. */
  function CurrentStreak(logs: seq<LogEntry>, today: int): (n: nat)
    ensures n <= |UniqueDates(logs)|
    ensures today in DaySet(logs) ==> RunBackFrom(DaySet(logs), today, n)
    ensures today !in DaySet(logs) && today - 1 in DaySet(logs) ==> RunBackFrom(DaySet(logs), today - 1, n)
    ensures today !in DaySet(logs) && today - 1 !in DaySet(logs) ==> n == 0
  {
    var sorted := UniqueDates(logs);
    UniqueDatesSet(logs);
    if |sorted| == 0 then 0
    else
      var start := if today in sorted then today else today - 1;
      if start !in sorted then 0
      else StreakBack((set x | x in sorted), start)
  }

  /** A run counted back from a day has one length only, so the contract of
      `CurrentStreak` fixes its value. */
  lemma RunBackUnique(days: set<int>, start: int, n: nat, m: nat)
    requires RunBackFrom(days, start, n) && RunBackFrom(days, start, m)
    ensures n == m
  {
  }

  /** With entries yesterday and the day before, none today and none three
      days back, the streak is 2: it starts from yesterday. */
  lemma StreakCountsFromYesterday(logs: seq<LogEntry>, today: int)
    requires today !in DaySet(logs)
    requires today - 1 in DaySet(logs) && today - 2 in DaySet(logs)
    requires today - 3 !in DaySet(logs)
    ensures CurrentStreak(logs, today) == 2
  {
    var days := DaySet(logs);
    assert RunBackFrom(days, today - 1, 2);
    RunBackUnique(days, today - 1, 2, CurrentStreak(logs, today));
  }

  // ---------------------------------------------------------------------
  // Longest streak
  // ---------------------------------------------------------------------

  /** Length of the run of consecutive days that ends at position `i` of a
      descending day list: position `i` and the positions just before it
      whose days step down by exactly one. */
  function RunAt(xs: seq<int>, i: nat): (n: nat)
    requires i < |xs|
    ensures 1 <= n <= i + 1
  {
    if i == 0 || xs[i - 1] - xs[i] != 1 then 1 else RunAt(xs, i - 1) + 1
  }

  /** The run ending at `i` is a maximal block of days stepping down by one. */
  lemma {:induction false} RunAtIsMaximalRun(xs: seq<int>, i: nat)
    requires i < |xs|
    ensures forall j :: i - RunAt(xs, i) < j <= i ==> xs[j] == xs[i] + (i - j)
    ensures i - RunAt(xs, i) >= 0 ==> xs[i - RunAt(xs, i)] != xs[i - RunAt(xs, i) + 1] + 1
  {
    if i > 0 && xs[i - 1] - xs[i] == 1 {
      RunAtIsMaximalRun(xs, i - 1);
    }
  }

  /** The longest run ending among the first `n` positions. */
  function MaxRun(xs: seq<int>, n: nat): (m: nat)
    requires n <= |xs|
    ensures m <= n
    ensures m == 0 <==> n == 0
  {
    if n == 0 then 0 else Max(MaxRun(xs, n - 1), RunAt(xs, n - 1))
  }

  /** `MaxRun` is the largest of the runs ending among the first `n` positions. */
  lemma {:induction false} MaxRunIsLargest(xs: seq<int>, n: nat)
    requires n <= |xs|
    ensures forall i :: 0 <= i < n ==> RunAt(xs, i) <= MaxRun(xs, n)
    ensures n > 0 ==> exists i :: 0 <= i < n && RunAt(xs, i) == MaxRun(xs, n)
  {
    if n > 0 {
      MaxRunIsLargest(xs, n - 1);
      if RunAt(xs, n - 1) < MaxRun(xs, n - 1) {
        var i :| 0 <= i < n - 1 && RunAt(xs, i) == MaxRun(xs, n - 1);
        assert RunAt(xs, i) == MaxRun(xs, n);
      }
    }
  }

  /** The pairwise scan of the longest-streak loop, from position `i` on:
      `current` is the open run and `best` the longest closed one. */
  function ScanLongest(xs: seq<int>, i: nat, current: nat, best: nat): (n: nat)
    requires 1 <= i <= |xs|
    ensures best <= n && current <= n
    ensures n <= Max(best, current) + (|xs| - i)
    decreases |xs| - i
  {
    if i == |xs| then Max(best, current)
    else if xs[i - 1] - xs[i] == 1 then ScanLongest(xs, i + 1, current + 1, best)
    else ScanLongest(xs, i + 1, 1, Max(best, current))
  }

  /** The scan finds the longest run. */
  lemma {:induction false} ScanIsMaxRun(xs: seq<int>, i: nat, current: nat, best: nat)
    requires 1 <= i <= |xs|
    requires current == RunAt(xs, i - 1)
    requires Max(best, current) == MaxRun(xs, i)
    ensures ScanLongest(xs, i, current, best) == MaxRun(xs, |xs|)
    decreases |xs| - i
  {
    if i < |xs| {
      assert MaxRun(xs, i + 1) == Max(MaxRun(xs, i), RunAt(xs, i));
      if xs[i - 1] - xs[i] == 1 {
        assert RunAt(xs, i) == current + 1;
        ScanIsMaxRun(xs, i + 1, current + 1, best);
        assert ScanLongest(xs, i, current, best) == ScanLongest(xs, i + 1, current + 1, best);
      } else {
        assert RunAt(xs, i) == 1;
        ScanIsMaxRun(xs, i + 1, 1, Max(best, current));
        assert ScanLongest(xs, i, current, best) == ScanLongest(xs, i + 1, 1, Max(best, current));
      }
    }
  }

  /** `longestStreak`: the longest run of consecutive days with entries. */
  function LongestStreak(logs: seq<LogEntry>): (n: nat)
    ensures n == 0 <==> |logs| == 0
    ensures |logs| > 0 ==> 1 <= n <= |UniqueDates(logs)|
    ensures n == MaxRun(UniqueDates(logs), |UniqueDates(logs)|)
  {
    var sorted := UniqueDates(logs);
    if |sorted| == 0 then 0
    else
      ScanIsMaxRun(sorted, 1, 1, 0);
      ScanLongest(sorted, 1, 1, 0)
  }

  /** A window of `c` consecutive days, all in a descending day list, ends at
      a position whose run is at least `c` long. */
  lemma {:induction false} WindowIsRun(xs: seq<int>, start: int, c: nat)
    requires StrictlyDescending(xs)
    requires c >= 1
    requires forall x :: start - c < x <= start ==> x in xs
    ensures exists i :: 0 <= i < |xs| && xs[i] == start - c + 1 && RunAt(xs, i) >= c
  {
    if c == 1 {
      assert start in xs;
      var i :| 0 <= i < |xs| && xs[i] == start;
      assert RunAt(xs, i) >= 1;
    } else {
      WindowIsRun(xs, start, c - 1);
      var i :| 0 <= i < |xs| && xs[i] == start - c + 2 && RunAt(xs, i) >= c - 1;
      assert start - c + 1 in xs;
      var k :| 0 <= k < |xs| && xs[k] == start - c + 1;
      assert i < k;
      assert xs[i + 1] == start - c + 1;
      assert RunAt(xs, i + 1) == RunAt(xs, i) + 1;
    }
  }

  /** Days present in the day set are present in the unique-day list. */
  lemma WindowInList(logs: seq<LogEntry>, lo: int, hi: int)
    requires AllPresent(DaySet(logs), lo, hi)
    ensures forall x :: lo < x <= hi ==> x in UniqueDates(logs)
  {
    UniqueDatesSet(logs);
    forall x | lo < x <= hi
      ensures x in UniqueDates(logs)
    {
      assert x in DaySet(logs);
      assert x in (set y | y in UniqueDates(logs));
    }
  }

  /** The all-time best streak is never shorter than the current one. */
  lemma LongestAtLeastCurrent(logs: seq<LogEntry>, today: int)
    ensures LongestStreak(logs) >= CurrentStreak(logs, today)
  {
    var c := CurrentStreak(logs, today);
    if c > 0 {
      var xs := UniqueDates(logs);
      var start := if today in DaySet(logs) then today else today - 1;
      assert RunBackFrom(DaySet(logs), start, c);
      WindowInList(logs, start - c, start);
      WindowIsRun(xs, start, c);
      var i :| 0 <= i < |xs| && xs[i] == start - c + 1 && RunAt(xs, i) >= c;
      MaxRunIsLargest(xs, |xs|);
    }
  }

  // ---------------------------------------------------------------------
  // Tag histogram
  // ---------------------------------------------------------------------

  /** Every tag of every entry, entry by entry, in list order. */
  function AllTags(logs: seq<LogEntry>): seq<string> {
    if |logs| == 0 then [] else AllTags(logs[..|logs| - 1]) + logs[|logs| - 1].tags
  }

  /** The number of (entry, tag position) pairs whose tag is `t`. */
  function TagCount(logs: seq<LogEntry>, t: string): nat {
    if |logs| == 0 then 0 else TagCount(logs[..|logs| - 1], t) + Occurrences(logs[|logs| - 1].tags, t)
  }

  /** The total length of all tag lists. */
  function TagPositions(logs: seq<LogEntry>): nat {
    if |logs| == 0 then 0 else TagPositions(logs[..|logs| - 1]) + |logs[|logs| - 1].tags|
  }

  lemma {:induction false} OccurrencesAppend(a: seq<string>, b: seq<string>, t: string)
    ensures Occurrences(a + b, t) == Occurrences(a, t) + Occurrences(b, t)
    decreases |b|
  {
    if |b| == 0 {
      assert a + b == a;
    } else {
      assert (a + b)[..|a + b| - 1] == a + b[..|b| - 1];
      assert (a + b)[|a + b| - 1] == b[|b| - 1];
      OccurrencesAppend(a, b[..|b| - 1], t);
    }
  }

  /** The flattened tag list has one position per tag of every entry, and
      counts each tag as often as the entries carry it. */
  lemma {:induction false} AllTagsFacts(logs: seq<LogEntry>)
    ensures |AllTags(logs)| == TagPositions(logs)
    ensures forall t :: Occurrences(AllTags(logs), t) == TagCount(logs, t)
    ensures forall t :: t in AllTags(logs) <==> exists i :: 0 <= i < |logs| && t in logs[i].tags
  {
    if |logs| > 0 {
      var pre := logs[..|logs| - 1];
      var e := logs[|logs| - 1];
      AllTagsFacts(pre);
      forall t
        ensures Occurrences(AllTags(logs), t) == TagCount(logs, t)
      {
        OccurrencesAppend(AllTags(pre), e.tags, t);
      }
      forall t
        ensures t in AllTags(logs) <==> exists i :: 0 <= i < |logs| && t in logs[i].tags
      {
        if t in AllTags(pre) {
          var i :| 0 <= i < |pre| && t in pre[i].tags;
          assert t in logs[i].tags;
        }
        if exists i :: 0 <= i < |logs| && t in logs[i].tags {
          var i :| 0 <= i < |logs| && t in logs[i].tags;
          if i < |pre| {
            assert t in pre[i].tags;
          }
        }
      }
    }
  }

  /** The tag count of a concatenation is the sum of the parts' counts. */
  lemma {:induction false} TagCountAppend(a: seq<LogEntry>, b: seq<LogEntry>, t: string)
    ensures TagCount(a + b, t) == TagCount(a, t) + TagCount(b, t)
    decreases |b|
  {
    if |b| == 0 {
      assert a + b == a;
    } else {
      assert (a + b)[..|a + b| - 1] == a + b[..|b| - 1];
      assert (a + b)[|a + b| - 1] == b[|b| - 1];
      TagCountAppend(a, b[..|b| - 1], t);
    }
  }

  /** `tagStats`: for each tag carried by some entry, how many times it is
      carried (a tag repeated within one entry counts each time). */
  function TagStats(logs: seq<LogEntry>): (counts: map<string, nat>)
    ensures forall t :: t in counts <==> exists i :: 0 <= i < |logs| && t in logs[i].tags
    ensures forall t :: t in counts ==> counts[t] == TagCount(logs, t)
    ensures forall t :: t in counts ==> counts[t] >= 1
  {
    AllTagsFacts(logs);
    var h := Histogram(AllTags(logs));
    assert forall t :: t in h ==> h[t] >= 1 by {
      forall t | t in h {
        OccurrencesPositive(AllTags(logs), t);
      }
    }
    h
  }

  /** `tagCounts[t] || 0` is the number of times the entries carry `t`,
      whether or not `t` is a key. */
  lemma TagStatsCount(logs: seq<LogEntry>, t: string)
    ensures CountOf(TagStats(logs), t) == TagCount(logs, t)
  {
    if t !in TagStats(logs) {
      AllTagsFacts(logs);
      OccurrencesPositive(AllTags(logs), t);
    }
  }

  /** The tag counts, read in key order, add up to the total length of all tag lists. */
  lemma TagStatsTotal(logs: seq<LogEntry>)
    ensures forall t :: t in KeysInOrder(AllTags(logs)) ==> t in TagStats(logs)
    ensures SumOver(TagStats(logs), KeysInOrder(AllTags(logs))) == TagPositions(logs)
  {
    AllTagsFacts(logs);
    HistogramTotal(AllTags(logs));
  }

  /** An entry with no tags leaves the tag histogram as it was. */
  lemma UntaggedIgnored(logs: seq<LogEntry>, e: LogEntry)
    requires e.tags == []
    ensures TagStats(logs + [e]) == TagStats(logs)
  {
    assert (logs + [e])[..|logs|] == logs;
    assert AllTags(logs + [e]) == AllTags(logs);
  }

  // ---------------------------------------------------------------------
  // Available years and the monthly histogram
  // ---------------------------------------------------------------------

  function YearsOf(logs: seq<LogEntry>): seq<int> {
    seq(|logs|, i requires 0 <= i < |logs| => logs[i].at.year)
  }

  /** `availableYears`: the years that carry entries, newest first; the
      current year alone when there are no entries. */
  function AvailableYears(logs: seq<LogEntry>, currentYear: int): (r: seq<int>)
    ensures StrictlyDescending(r)
    ensures |r| >= 1
    ensures forall y :: y in r <==>
      (exists i :: 0 <= i < |logs| && logs[i].at.year == y) || (|logs| == 0 && y == currentYear)
  {
    var ys := YearsOf(logs);
    assert forall i :: 0 <= i < |logs| ==> ys[i] == logs[i].at.year;
    var r := DistinctDescending(ys + (if |logs| == 0 then [currentYear] else []));
    assert |logs| > 0 ==> ys[0] in r;
    r
  }

  /** A key of the monthly histogram: the `YYYY-MM` of a month. */
  datatype MonthKey = MonthKey(year: int, month0: int)

  /** Entries of the given year and month. */
  function MonthCount(logs: seq<LogEntry>, year: int, m: int): nat {
    if |logs| == 0 then 0
    else
      var e := logs[|logs| - 1];
      MonthCount(logs[..|logs| - 1], year, m) + (if e.at.year == year && e.at.month0 == m then 1 else 0)
  }

  /** Entries of the given year. */
  function YearCount(logs: seq<LogEntry>, year: int): nat {
    if |logs| == 0 then 0
    else YearCount(logs[..|logs| - 1], year) + (if logs[|logs| - 1].at.year == year then 1 else 0)
  }

  /** The twelve keys of a year, every count zero. */
  function EmptyMonths(year: int): map<MonthKey, nat> {
    map m | 0 <= m < 12 :: MonthKey(year, m) := 0
  }

  /** `monthlyStats`: exactly the twelve months of `year`, each holding the
      number of that year's entries that fall in it. */
  function MonthlyStats(logs: seq<LogEntry>, year: int): (counts: map<MonthKey, nat>)
    ensures forall k :: k in counts <==> k.year == year && 0 <= k.month0 < 12
    ensures forall k :: k in counts ==> counts[k] == MonthCount(logs, year, k.month0)
  {
    if |logs| == 0 then EmptyMonths(year)
    else
      var counts := MonthlyStats(logs[..|logs| - 1], year);
      var e := logs[|logs| - 1];
      var key := MonthKey(year, e.at.month0);
      if e.at.year == year && key in counts then counts[key := counts[key] + 1] else counts
  }

  /** The counts of months `0 .. n-1` of `year`. */
  function SumMonths(counts: map<MonthKey, nat>, year: int, n: nat): nat
    requires n <= 12
    requires forall m :: 0 <= m < 12 ==> MonthKey(year, m) in counts
  {
    if n == 0 then 0 else SumMonths(counts, year, n - 1) + counts[MonthKey(year, n - 1)]
  }

  lemma {:induction false} SumMonthsBump(counts: map<MonthKey, nat>, year: int, m: int, n: nat)
    requires n <= 12 && 0 <= m < 12
    requires forall k :: 0 <= k < 12 ==> MonthKey(year, k) in counts
    ensures var key := MonthKey(year, m);
      SumMonths(counts[key := counts[key] + 1], year, n) == SumMonths(counts, year, n) + (if m < n then 1 else 0)
  {
    if n > 0 {
      SumMonthsBump(counts, year, m, n - 1);
    }
  }

  /** With every month in range, the twelve counts add up to the entries of that year. */
  lemma {:induction false} MonthlyTotal(logs: seq<LogEntry>, year: int)
    requires AllWellFormed(logs)
    ensures SumMonths(MonthlyStats(logs, year), year, 12) == YearCount(logs, year)
  {
    if |logs| == 0 {
      SumMonthsZero(EmptyMonths(year), year, 12);
    } else {
      var pre := logs[..|logs| - 1];
      assert AllWellFormed(pre) by {
        forall i | 0 <= i < |pre| ensures WellFormedInstant(pre[i].at) {
          assert pre[i] == logs[i];
        }
      }
      MonthlyTotal(pre, year);
      MonthlyStep(logs, year);
    }
  }

  /** One more entry adds one to the twelve counts exactly when it is of that year. */
  lemma MonthlyStep(logs: seq<LogEntry>, year: int)
    requires |logs| > 0 && WellFormedInstant(logs[|logs| - 1].at)
    ensures var pre, e := logs[..|logs| - 1], logs[|logs| - 1];
      SumMonths(MonthlyStats(logs, year), year, 12)
        == SumMonths(MonthlyStats(pre, year), year, 12) + (if e.at.year == year then 1 else 0)
  {
    var pre, e := logs[..|logs| - 1], logs[|logs| - 1];
    if e.at.year == year {
      SumMonthsBump(MonthlyStats(pre, year), year, e.at.month0, 12);
    }
  }

  lemma {:induction false} SumMonthsZero(z: map<MonthKey, nat>, year: int, n: nat)
    requires n <= 12
    requires z == EmptyMonths(year)
    ensures SumMonths(z, year, n) == 0
  {
    if n > 0 {
      SumMonthsZero(z, year, n - 1);
    }
  }

  // ---------------------------------------------------------------------
  // Daily maximum
  // ---------------------------------------------------------------------

  /** Entries recorded on day `d`. */
  function DayCount(logs: seq<LogEntry>, d: int): nat {
    Occurrences(DaysOf(logs), d)
  }

  /** `Math.max(0, ...)` over the counts of the listed keys. */
  function MaxCount(h: map<int, nat>, keys: seq<int>): (m: nat)
    requires forall k :: k in keys ==> k in h
    ensures forall k :: k in keys ==> h[k] <= m
    ensures |keys| == 0 ==> m == 0
    ensures |keys| > 0 ==> exists k :: k in keys && h[k] == m
  {
    if |keys| == 0 then 0
    else
      var pre := keys[..|keys| - 1];
      var last := keys[|keys| - 1];
      assert forall k :: k in pre ==> k in keys;
      assert last in keys;
      assert forall k :: k in keys ==> k in pre || k == last;
      Max(MaxCount(h, pre), h[last])
  }

  /** `maxDaily`: the largest number of entries on one day, 0 when there are
      none. `MaxDailyIsMax` states what the value is. */
  function MaxDaily(logs: seq<LogEntry>): (m: nat)
    ensures |logs| == 0 ==> m == 0
    ensures |logs| > 0 ==> 1 <= m <= |logs|
  {
    var ds := DaysOf(logs);
    if |ds| == 0 then 0
    else
      var h, keys := Histogram(ds), KeysInOrder(ds);
      var m := MaxCount(h, keys);
      assert 1 <= m <= |ds| by {
        var k :| k in keys && h[k] == m;
        OccurrencesPositive(ds, k);
        OccurrencesBound(ds, k);
      }
      m
  }

  /** The daily maximum bounds the count of every day and is the count of a
      day that carries an entry. */
  lemma MaxDailyIsMax(logs: seq<LogEntry>)
    ensures forall d :: DayCount(logs, d) <= MaxDaily(logs)
    ensures |logs| > 0 ==> exists i :: 0 <= i < |logs| && DayCount(logs, logs[i].at.day) == MaxDaily(logs)
  {
    var ds := DaysOf(logs);
    var daily := Histogram(ds);
    var m := MaxDaily(logs);
    forall d
      ensures DayCount(logs, d) <= m
    {
      OccurrencesPositive(ds, d);
    }
    if |logs| > 0 {
      assert ds[0] in KeysInOrder(ds);
      var k :| k in KeysInOrder(ds) && daily[k] == m;
      var i :| 0 <= i < |ds| && ds[i] == k;
      assert logs[i].at.day == k;
    }
  }

  // ---------------------------------------------------------------------
  // One-pass counters
  // ---------------------------------------------------------------------

  predicate IsWeekend(e: LogEntry) {
    e.at.weekday == 0 || e.at.weekday == 6
  }

  /** Night owl: the window 22:00 to 04:00, which crosses midnight. */
  predicate IsNightOwl(e: LogEntry) {
    e.at.hour >= 22 || e.at.hour < 4
  }

  /** Early bird: 05:00 to 09:00. */
  predicate IsEarlyBird(e: LogEntry) {
    e.at.hour >= 5 && e.at.hour < 9
  }

  /** A duration is truthy when present and non-zero. */
  predicate HasDuration(e: LogEntry) {
    e.duration.Some? && e.duration.value != 0
  }

  predicate IsMarathon(e: LogEntry) {
    HasDuration(e) && e.duration.value > 45
  }

  predicate IsQuickie(e: LogEntry) {
    HasDuration(e) && e.duration.value < 15
  }

  /** The (month, day of month) pair of an entry, month counted from 0. */
  function MonthDay(e: LogEntry): (int, int) {
    (e.at.month0, e.at.dayOfMonth)
  }

  datatype Tally = Tally(
    weekend: nat,
    nightOwl: nat,
    earlyBird: nat,
    marathon: nat,
    quickie: nat,
    monthDays: set<(int, int)>
  )

  /** The counters gathered in one pass over the entries. */
  function TallyOf(logs: seq<LogEntry>): (t: Tally)
    ensures t.weekend == CountIf(logs, IsWeekend)
    ensures t.nightOwl == CountIf(logs, IsNightOwl)
    ensures t.earlyBird == CountIf(logs, IsEarlyBird)
    ensures t.marathon == CountIf(logs, IsMarathon)
    ensures t.quickie == CountIf(logs, IsQuickie)
  {
    if |logs| == 0 then Tally(0, 0, 0, 0, 0, {})
    else
      var pre := logs[..|logs| - 1];
      var t := TallyOf(pre);
      var e := logs[|logs| - 1];
      Tally(
        t.weekend + (if IsWeekend(e) then 1 else 0),
        t.nightOwl + (if IsNightOwl(e) then 1 else 0),
        t.earlyBird + (if IsEarlyBird(e) then 1 else 0),
        t.marathon + (if IsMarathon(e) then 1 else 0),
        t.quickie + (if IsQuickie(e) then 1 else 0),
        t.monthDays + {MonthDay(e)})
  }

  /** The month-day pairs seen are exactly those of the entries. */
  lemma {:induction false} MonthDaysSeen(logs: seq<LogEntry>, m: int, d: int)
    ensures (m, d) in TallyOf(logs).monthDays <==>
      exists i :: 0 <= i < |logs| && logs[i].at.month0 == m && logs[i].at.dayOfMonth == d
  {
    if |logs| > 0 {
      var pre := logs[..|logs| - 1];
      MonthDaysSeen(pre, m, d);
      if exists i :: 0 <= i < |pre| && pre[i].at.month0 == m && pre[i].at.dayOfMonth == d {
        var i :| 0 <= i < |pre| && pre[i].at.month0 == m && pre[i].at.dayOfMonth == d;
        assert logs[i] == pre[i];
      }
      if exists i :: 0 <= i < |logs| && logs[i].at.month0 == m && logs[i].at.dayOfMonth == d {
        var i :| 0 <= i < |logs| && logs[i].at.month0 == m && logs[i].at.dayOfMonth == d;
        if i < |pre| {
          assert logs[i] == pre[i];
        }
      }
    }
  }

  /** Every counter is bounded by the total; night-owl and early-bird
      entries are disjoint, and so are long and short ones, which together
      never exceed the entries with a non-zero duration. */
  lemma TallyBounds(logs: seq<LogEntry>)
    ensures TallyOf(logs).weekend <= |logs|
    ensures TallyOf(logs).nightOwl + TallyOf(logs).earlyBird <= |logs|
    ensures TallyOf(logs).marathon + TallyOf(logs).quickie <= CountIf(logs, HasDuration)
    ensures CountIf(logs, HasDuration) <= |logs|
  {
    CountIfBound(logs, IsWeekend);
    CountIfDisjoint(logs, IsNightOwl, IsEarlyBird);
    CountIfDisjointWithin(logs, IsMarathon, IsQuickie, HasDuration);
    CountIfBound(logs, HasDuration);
  }

  // ---------------------------------------------------------------------
  // Today's entries
  // ---------------------------------------------------------------------

  /** `todayLogs`: the entries whose day is today, in list order;
      `TodayLogsIsFilter` states that it keeps each of them as often as it
      occurs and in order. */
  function TodayLogs(logs: seq<LogEntry>, today: int): (r: seq<LogEntry>)
    ensures forall e :: e in r ==> e in logs && e.at.day == today
    ensures forall e :: e in logs && e.at.day == today ==> e in r
    ensures |r| == DayCount(logs, today)
  {
    if |logs| == 0 then []
    else
      var pre := logs[..|logs| - 1];
      var e := logs[|logs| - 1];
      assert logs == pre + [e];
      assert DaysOf(logs)[..|logs| - 1] == DaysOf(pre);
      TodayLogs(pre, today) + (if e.at.day == today then [e] else [])
  }

  /** Today's entries are today's part of the list: every entry of today
      as often as the list holds it, none of another day, in list order. */
  lemma {:induction false} TodayLogsIsFilter(logs: seq<LogEntry>, today: int)
    ensures forall e :: Occurrences(TodayLogs(logs, today), e) == if e.at.day == today then Occurrences(logs, e) else 0
    ensures SubsequenceOf(TodayLogs(logs, today), logs)
  {
    TodayLogsCounts(logs, today);
    TodayLogsInOrder(logs, today);
  }

  lemma {:induction false} TodayLogsCounts(logs: seq<LogEntry>, today: int)
    ensures forall e :: Occurrences(TodayLogs(logs, today), e) == if e.at.day == today then Occurrences(logs, e) else 0
  {
    if |logs| > 0 {
      var pre, e := logs[..|logs| - 1], logs[|logs| - 1];
      var kept := TodayLogs(pre, today);
      TodayLogsCounts(pre, today);
      if e.at.day == today {
        assert TodayLogs(logs, today) == kept + [e];
        assert (kept + [e])[..|kept|] == kept;
      } else {
        assert TodayLogs(logs, today) == kept;
      }
    }
  }

  lemma {:induction false} TodayLogsInOrder(logs: seq<LogEntry>, today: int)
    ensures SubsequenceOf(TodayLogs(logs, today), logs)
  {
    if |logs| > 0 {
      var pre, e := logs[..|logs| - 1], logs[|logs| - 1];
      var kept := TodayLogs(pre, today);
      TodayLogsInOrder(pre, today);
      assert logs == pre + [e];
      if e.at.day == today {
        assert TodayLogs(logs, today) == kept + [e];
        SubsequenceExtend(kept, pre, e);
      } else {
        assert TodayLogs(logs, today) == kept;
        SubsequenceSkip(kept, pre, e);
      }
    }
  }
}
